=== FILE: README.md ===
# foredeck core, modelled in Dafny

This project models the decision logic of foredeck, a multi-tenant SaaS starter. It covers:

- **Onboarding.** One license key is redeemed to create a tenant, its first user and that user's local identity, in one transaction.
- **Login and profile lookup.** Login works over local password identities. The profile lookup returns the user with the tenant's name.
- **The JWT service's pure parts.** These are the token payloads, the `expiresIn` duration parser and the cookie records.
- **The two access guards.** One is strict about the token type and one is lax.
- **The shared zod schemas.** This includes the NestJS validation pipe and the mock server's `validateRequest`.
- **The web app's pure helpers.** These are the fetch client, the 401/403 redirect hook, the public-route tests, the theme preference state machine and the stepper's per-step classification.

Everything is written as pure functions over immutable datatypes:

- The database is a `Db` of four tables (licenses, tenants, users, identities). Each table is a sequence of rows in table order. `findOne` is the first matching row.
- The unique constraints of the migrations are predicates (`Store.Valid`).
- Onboarding returns the store after the transaction together with its outcome. A failure leaves the store as it was.
- A few things become function parameters rather than being modelled: password hashing and verification, JWT signing and verification, token issuance, email and URL syntax, `fetch`, and `response.json()`.
- Time (`now`) and fresh row ids (`NewIds`) are parameters as well.

Files:

| file | modules |
|---|---|
| `wrappers.dfy` | `Wrappers` (Option, Result), `Exceptions` (HTTP exceptions) |
| `store.dfy` | `Store`, `StoreAppend`, `FindFacts` |
| `slug.dfy` | `Slug` |
| `onboarding.dfy` | `Onboarding`, `OnboardingProperties` |
| `auth.dfy` | `Auth`, `AuthProperties` |
| `tokens.dfy` | `Tokens`, `TokenProperties` |
| `guards.dfy` | `Guards`, `GuardProperties` |
| `session.dfy` | `Session` (onboarding followed by login or profile lookup) |
| `validation.dfy` | `JsonValues`, `Schemas`, `SchemaProperties`, `ValidationPipe`, `ValidationPipeProperties`, `RequestValidation`, `RequestValidationProperties` |
| `routes.dfy` | `Routes`, `RouteProperties` |
| `httpclient.dfy` | `HttpClient`, `HttpClientProperties` |
| `theme.dfy` | `Theme`, `ThemeProperties` |
| `stepper.dfy` | `Stepper`, `StepperProperties` |

## Model

The table lists the members that carry a contract. Functions without one appear through the lemmas about them:
- `Routes.IsPublicRoute` and `Routes.IsPublicRouteWithRegister` (`isPublicRoute`) through `RouteProperties.PublicIff` and `RouteProperties.PublicWithRegisterIff`;
- `HttpClient.BuildUrl` (`buildUrl`) through `HttpClientProperties.BuildUrlShape`;
- `Tokens.ParseInt` (`parseInt`) through `TokenProperties.ParseIntOfDigits` and `TokenProperties.ParseExpiresInUnits`;
- `Store.LicenseByKey` and `Store.IdentityByProvider` through `Store.LicenseByKeyUnique` and `Store.IdentityByProviderUnique`.

| member | source | states |
|---|---|---|
| Store.FirstIndex | apps/core/src/onboarding/repositories/license.repository.ts:13-16 | The index found is the first row satisfying the predicate, or the table length when no row does. |
| Store.FindFirst | apps/core/src/onboarding/repositories/user-identity.repository.ts:13-20 | `findOne` gives None iff no row matches; otherwise it gives a matching row of the table with no match before it. |
| Store.LicenseByKeyUnique | apps/core/src/migrations/1767099821000-CreateLicensesTable.ts:17-21 | Under the unique license key, looking a key up finds exactly the license carrying it. |
| Store.IdentityByProviderUnique | apps/core/src/migrations/1767099824000-CreateUserIdentitiesTable.ts:61-69 | Under the unique (provider, provider_id) index, the lookup finds exactly that identity. |
| Store.UserByIdUnique | apps/core/src/migrations/1767099823000-CreateUsersTable.ts:9-15 | Under the primary key, looking up a stored user's id finds that user. |
| Store.TenantByIdUnique | apps/core/src/migrations/1767099822000-CreateTenantsTable.ts:9-15 | Under the primary key, looking up a stored tenant's id finds that tenant. |
| Store.TenantByLicenseNone | apps/core/src/onboarding/onboarding.service.ts:43-47 | Looking up the tenant of a license that no tenant references finds nothing. |
| Store.IdentityByProviderNone | apps/core/src/onboarding/repositories/user-identity.repository.ts:13-20 | Looking up a (provider, provider id) pair that no identity has finds nothing. |
| Store.LicenseLookup | apps/core/src/onboarding/repositories/license.repository.ts:13-16 | The lookup finds nothing iff no row is designated by the key. A found row is the one with that key, or, when the key is undefined and TypeORM drops the condition, the first row. |
| Store.LicenseLookupUnique | apps/core/src/migrations/1767099821000-CreateLicensesTable.ts:17-21 | Under the unique license key, the lookup returns exactly the row the key designates. |
| StoreAppend.AppendTenant | apps/core/src/migrations/1767099822000-CreateTenantsTable.ts:17-32 | Appending a tenant that clashes with no id, license_id or slug keeps all three unique. |
| StoreAppend.AppendUser | apps/core/src/migrations/1767099823000-CreateUsersTable.ts:55-63 | Appending a user that clashes with no id and no (tenant_id, email) pair keeps both unique. |
| StoreAppend.AppendIdentity | apps/core/src/migrations/1767099824000-CreateUserIdentitiesTable.ts:17-21 | Appending an identity that clashes with no id, user_id or (provider, provider_id) keeps all three unique. |
| FindFacts.FindFirstIgnoresNonMatching | apps/core/src/auth/auth.service.ts:22-28 | Rows that do not match the `where` clause, added anywhere after the table, do not change what `findOne` returns. |
| Slug.Collapse | apps/core/src/onboarding/onboarding.service.ts:103 | Replacing every run of non-[a-z0-9] characters by '-' leaves only [a-z0-9-] with no doubled hyphen. The result is empty iff the input is, and starts with '-' iff the input starts with a separator. |
| Slug.HyphenatedMeans | apps/core/src/onboarding/onboarding.service.ts:103 | The character-by-character reading of "only [a-z0-9-], no doubled hyphen" agrees with the position-by-position statement, both ways. |
| Slug.CollapseKeepsAlnums | apps/core/src/onboarding/onboarding.service.ts:103 | Collapsing keeps every letter and digit, in order, and adds none. |
| Slug.CollapseAlnumRun | apps/core/src/onboarding/onboarding.service.ts:103 | A leading run of letters and digits passes through the replacement unchanged. |
| Slug.CollapseSpaceWord | apps/core/src/onboarding/onboarding.service.ts:103 | A space in front of a word of letters and digits becomes one hyphen. |
| Slug.TrimLeading | apps/core/src/onboarding/onboarding.service.ts:104 | Stripping leading hyphens leaves a suffix that does not start with '-', and only hyphens were dropped. |
| Slug.TrimTrailing | apps/core/src/onboarding/onboarding.service.ts:104 | Stripping trailing hyphens leaves a prefix that does not end with '-', and only hyphens were dropped. |
| Slug.GenerateSlug | apps/core/src/onboarding/onboarding.service.ts:100-105 | The slug contains only [a-z0-9-], with no leading, trailing or doubled hyphen. |
| Slug.SlugKeepsAlnums | apps/core/src/onboarding/onboarding.service.ts:100-105 | The slug holds exactly the lower-cased name's letters and digits, in order. |
| Slug.SlugEmptyIff | apps/core/src/onboarding/onboarding.service.ts:100-105 | The slug is empty iff the name has no ASCII letter or digit. |
| Slug.SlugOfSlug | apps/core/src/onboarding/onboarding.service.ts:100-105 | A well-formed slug is its own slug. |
| Slug.TrimmedIsSlug | apps/core/src/onboarding/onboarding.service.ts:104 | Stripping both ends of a hyphenated string leaves a well-formed slug. |
| Slug.SlugIgnoresCase | apps/core/src/onboarding/onboarding.service.ts:102 | Lower-casing the name first changes nothing about its slug. |
| Slug.TwoWordSlug | apps/core/src/onboarding/onboarding.service.ts:100-105 | Two words of letters and digits separated by a space give the two words joined by a hyphen. |
| Slug.GenerateSlugIdempotent | apps/core/src/onboarding/onboarding.service.ts:100-105 | Generating a slug from a slug changes nothing. |
| Slug.AcmeCorpSlug | apps/core/src/onboarding/onboarding.service.ts:100-105 | An illustration of `TwoWordSlug` and `GenerateSlug`'s contract: "Acme Corp" becomes "acme-corp". |
| Onboarding.TenantUrl | apps/core/src/onboarding/onboarding.service.ts:66 | The stored url is null iff the company URL is absent or the empty string; otherwise it is the URL. |
| Onboarding.OnboardUser | apps/core/src/onboarding/onboarding.service.ts:31-97 | A failure rolls back, leaving the store unchanged, and its error is one of the four checks or a unique violation. A success echoes (user id, tenant id, email). It redeemed the license row the key designates, which was unexpired and unused, and no local identity had the email. It appended exactly one tenant, one user and one identity, each linked to the one before, built from the input and accepted by the unique constraints. |
| OnboardingProperties.OnboardingErrors | apps/core/src/onboarding/onboarding.service.ts:33-57 | The checks run key, expiry, use, email, and the first failing one decides the error, in both directions. "Invalid license key" means no row is designated by the key. A license expiring exactly at `now` passes the expiry check. |
| OnboardingProperties.OnboardedPreservesValid | apps/core/src/onboarding/onboarding.service.ts:61-90 | Appending the three linked rows keeps every unique constraint and every foreign key. |
| OnboardingProperties.OnboardingPreservesValid | apps/core/src/onboarding/onboarding.service.ts:32-97 | Every run of the transaction, failed or not, leaves a valid store valid. |
| OnboardingProperties.OnboardingSucceeds | apps/core/src/onboarding/onboarding.service.ts:31-97 | With a redeemable license, an unregistered email, fresh ids and an unused slug, onboarding succeeds. |
| OnboardingProperties.LicenseRedeemedOnce | apps/core/src/onboarding/onboarding.service.ts:43-47 | After a successful onboarding, a second one with the same key, or again with none, fails. If it is no later, it fails with "License key has already been used". |
| OnboardingProperties.UndefinedKeyTakesFirstLicense | apps/core/src/onboarding/onboarding.service.ts:33-37 | With the key undefined, onboarding fails with "Invalid license key" iff there are no licenses at all. A success redeems the first license row. |
| OnboardingProperties.SameSlugTwice | apps/core/src/migrations/1767099822000-CreateTenantsTable.ts:28-32 | Two companies whose names give the same slug cannot both onboard. The second hits the slug's unique constraint, because the service never checks it. |
| OnboardingProperties.SlugClashFails | apps/core/src/onboarding/onboarding.service.ts:59-69 | When every check passes but a stored tenant already has the slug, the transaction fails with the generic 500. |
| Auth.Login | apps/core/src/auth/auth.service.ts:21-43 | A failure sets nothing on the response and throws "Invalid credentials" or a TypeError. A success means a local identity for the email has a usable hash that the password verifies against. The token is then issued for that identity's user (id, email, tenantId) and set on the response. |
| Auth.GetUserById | apps/core/src/auth/auth.service.ts:45-63 | The call throws NotFound "User not found" iff no user has the id. Otherwise it returns exactly {userId, email, fullName, tenant: {name}} of that user and its tenant. |
| AuthProperties.NoAccountEnumeration | apps/core/src/auth/auth.service.ts:30-38 | An unknown email and a wrong password give the identical reply: Unauthorized "Invalid credentials", with nothing set on the response. |
| AuthProperties.NoPasswordNoLogin | apps/core/src/auth/auth.service.ts:30-32 | A local identity with a null or empty password hash never logs in. |
| AuthProperties.LoginSucceedsIff | apps/core/src/auth/auth.service.ts:21-43 | In a consistent store, login succeeds iff the email's local identity has a usable hash the password verifies against. Every failure is "Invalid credentials". |
| AuthProperties.LoginIgnoresOtherIdentities | apps/core/src/auth/auth.service.ts:22-28 | Identities of other providers or other emails do not affect login. |
| AuthProperties.ProfileOfStoredUser | apps/core/src/auth/auth.service.ts:51-62 | In a consistent store, every stored user's profile is found, carrying its own tenant's name. |
| Session.ProfileAfterOnboarding | apps/core/src/onboarding/onboarding.service.ts:61-96 | Right after onboarding, the new user's profile carries the submitted email and full name and the company name as tenant name. |
| Session.LoginAfterOnboarding | apps/core/src/auth/auth.service.ts:21-43 | Right after onboarding, the submitted email and password log in, and the token is issued for the new user in the new tenant. |
| Tokens.GenerateTokenPair | apps/core/src/auth/jwt.service.ts:38-81 | The pair signs two payloads with the same sub, email and tenantId. The access payload has type 'access' and the access expiry. The refresh payload has type 'refresh' and the refresh expiry. |
| Tokens.ParseExpiresIn | apps/core/src/auth/jwt.service.ts:148-149 | A string that is empty or ends in anything but s, m, h or d gives 900000 ms, whatever the number. |
| Tokens.SetTokenCookies | apps/core/src/auth/jwt.service.ts:93-111 | The call sets `access_token` and `refresh_token` to the two tokens. Both are httpOnly, sameSite 'lax', path '/', and secure iff NODE_ENV is 'production'. Each maxAge is its own expiry parsed. |
| Tokens.ClearTokenCookies | apps/core/src/auth/jwt.service.ts:116-130 | The call clears `access_token` and `refresh_token` with the same hardened attributes and no maxAge. |
| TokenProperties.NumeralValue | apps/core/src/auth/jwt.service.ts:137 | Reading a printed decimal numeral back gives the number. |
| TokenProperties.ParseIntOfDigits | apps/core/src/auth/jwt.service.ts:137 | `parseInt` of a digit string is its decimal value. |
| TokenProperties.ParseExpiresInUnits | apps/core/src/auth/jwt.service.ts:135-147 | "<digits>s/m/h/d" gives the number times 1000, 60000, 3600000 or 86400000. |
| TokenProperties.ParseExpiresInNumeral | apps/core/src/auth/jwt.service.ts:135-147 | A duration printed from n and a unit parses back to n units in milliseconds. |
| TokenProperties.DefaultExpiries | apps/core/src/config/jwt.config.ts:15-16 | The defaults '15m' and '7d' convert to 900000 and 604800000 ms. |
| TokenProperties.ClearMatchesSet | apps/core/src/auth/jwt.service.ts:93-130 | Logout clears exactly the cookies login set, with the same attributes minus maxAge. |
| Guards.CanActivateStrict | apps/core/src/auth/guards/jwt-auth.guard.ts:13-40 | The guard never returns false. A missing cookies object, or a missing or empty `access_token`, gives "No access token provided". It accepts iff the token verifies to a payload of type 'access', and it then attaches that payload as `request.user`. Every other rejection, including the inner "Invalid token type", surfaces as "Invalid or expired token". A rejection leaves the request untouched. |
| Guards.CanActivateLax | apps/core/src/common/guards/jwt-auth.guard.ts:17-37 | The guard never returns false. A request without a cookies object throws a TypeError, and a missing or empty token gives "No access token provided". It accepts iff the token verifies, of any type, and then attaches the payload. A rejection leaves the request untouched. |
| GuardProperties.StrictImpliesLax | apps/core/src/common/guards/jwt-auth.guard.ts:25-29 | Whatever the strict guard accepts, the lax guard accepts with the same resulting request. |
| GuardProperties.GuardsDisagreeOnTokenType | apps/core/src/auth/guards/jwt-auth.guard.ts:24-31 | A verifiable non-access token is rejected by the strict guard with "Invalid or expired token" and accepted by the lax one. |
| GuardProperties.IssuedTokensAtTheGuards | apps/core/src/auth/jwt.service.ts:74-88 | With a verifier that inverts signing, the issued access token passes the strict guard with the user's claims. The refresh token is rejected by it and accepted by the lax guard. |
| JsonValues.Utf16Length | packages/contracts/src/schemas/onboarding.ts:9 | A string's JavaScript length counts one unit per character of the Basic Multilingual Plane and two per other character. It lies between the character count and twice that, and equals the character count when every character is in that plane. |
| Schemas.Check | packages/contracts/src/schemas/onboarding.ts:5-10 | A field rule accepts exactly: a string of at least the minimum number of UTF-16 code units, a string the email predicate accepts, or for the optional URL an absent value, "" or a URL. A value of the wrong type always gives an issue, whose message is the rule's, zod's type message, or for the URL union "Invalid input". |
| Schemas.PassingFieldsTyped | packages/contracts/src/schemas/onboarding.ts:3-15 | Fields that all pass their rules have the types the rules expect, so the refinement is not skipped. |
| Schemas.FieldIssues | packages/contracts/src/schemas/onboarding.ts:3-11 | There are no field issues iff every declared field passes its rule. There is at most one issue per field, each on the path of a declared field. |
| Schemas.Strip | packages/contracts/src/schemas/onboarding.ts:3-11 | The output object keeps exactly the input's declared keys with their values. |
| Schemas.Parse | packages/contracts/src/schemas/onboarding.ts:3-15 | A parse succeeds iff the value is an object, every field passes and, with the refinement, password equals confirmPassword. The output holds only declared keys, and a failure reports at least one issue. |
| Schemas.RequestData | apps/core/src/onboarding/onboarding.controller.ts:38-45 | Each field is copied from the validated body as it stands. licenseKey and companyUrl are undefined exactly when the body lacks them. |
| SchemaProperties.MinLengthPasses | packages/contracts/src/schemas/onboarding.ts:5 | A `min` rule passes iff the field is present, a string, and at least that many UTF-16 code units long. |
| SchemaProperties.EmailPasses | packages/contracts/src/schemas/onboarding.ts:8 | An email rule passes iff the field is present and a string in email syntax. |
| SchemaProperties.OptionalUrlPasses | packages/contracts/src/schemas/onboarding.ts:6 | The optional URL passes iff it is absent, or a string that is empty or in URL syntax. |
| SchemaProperties.OnboardingSchemaAccepts | packages/contracts/src/schemas/onboarding.ts:3-15 | The schema accepts exactly the objects meeting every onboarding rule, stated field by field. |
| SchemaProperties.OnboardingOutputKeys | packages/contracts/src/schemas/onboarding.ts:3-11 | The output keys are the input's keys among the six declared fields, never licenseKey. |
| SchemaProperties.LicenseKeyDropped | packages/contracts/src/schemas/onboarding.ts:3-11 | Every body the schema as written accepts reaches `onboardUser` with licenseKey undefined, whatever key the request carried. |
| SchemaProperties.KeyNeverChecked | apps/core/src/onboarding/onboarding.controller.ts:38-45 | For every accepted body, onboarding fails with "Invalid license key" iff the license table is empty, whatever key was sent. |
| SchemaProperties.LicenseKeyKept | apps/core/src/tools/swagger/dtos/onboarding.dto.ts:3-8 | With licenseKey declared, every accepted body reaches the service with its license key defined, and with its key, company name, email and password equal to the request's. |
| SchemaProperties.LoginSchemaAccepts | packages/contracts/src/schemas/auth.ts:3-6 | The login schema accepts exactly objects with an email the predicate accepts and a password of at least one character. |
| SchemaProperties.LoginOutputKeys | packages/contracts/src/schemas/auth.ts:3-6 | The login output holds exactly email and password. |
| SchemaProperties.LoginPasswordShorter | packages/contracts/src/schemas/auth.ts:5 | A password of one to seven UTF-16 code units is accepted at login and rejected at onboarding. |
| SchemaProperties.PasswordMismatchReported | packages/contracts/src/schemas/onboarding.ts:12-15 | "Passwords don't match" on confirmPassword is reported iff every field has its expected type and the passwords differ. A too-short or badly formatted field does not suppress it; it then comes after the field issues. |
| SchemaProperties.OnboardingTypesMatch | packages/contracts/src/schemas/onboarding.ts:4-11 | No field has an aborting issue iff the five string fields are strings and companyUrl is absent or a string. |
| SchemaProperties.NoFieldIssueSays | packages/contracts/src/schemas/onboarding.ts:4-11 | A message that no rule declares, that is not zod's type message for any value, and that is not the union message, never appears among the field issues. |
| SchemaProperties.FieldIssueMessage | packages/contracts/src/schemas/onboarding.ts:4-11 | Every field issue is on a declared field's path and carries the message of that field's failing rule. |
| SchemaProperties.ParseOutputStable | packages/contracts/src/schemas/onboarding.ts:3-15 | Parsing an accepted output again gives the same output. |
| ValidationPipe.Transform | apps/core/src/common/pipes/zod-validation.pipe.ts:7-22 | Metadata other than body or query returns the value unchanged. For body and query, the pipe succeeds iff the schema accepts, returns the schema's output rather than the raw value, and fails with the schema's issues. |
| ValidationPipeProperties.PipeIgnoresSchema | apps/core/src/common/pipes/zod-validation.pipe.ts:8-10 | For parameters and custom arguments, the result does not depend on the schema. |
| ValidationPipeProperties.OnboardingBodyStripped | apps/core/src/common/pipes/zod-validation.pipe.ts:12-21 | An accepted onboarding body that carried licenseKey comes out of the pipe changed and without it. |
| ValidationPipeProperties.RejectedWithIssues | apps/core/src/common/pipes/zod-validation.pipe.ts:15-18 | A body the schema rejects is a BadRequest carrying exactly the schema's non-empty issue list. |
| ValidationPipeProperties.PipeIdempotent | apps/core/src/common/pipes/zod-validation.pipe.ts:7-22 | Running the pipe on its own output gives the same output. |
| RequestValidation.Join | apps/web/src/mocks/utils/validate-request.ts:22 | Joining no parts gives "" and joining one part gives that part. |
| RequestValidation.ValidateRequest | apps/web/src/mocks/utils/validate-request.ts:6-31 | A successful parse returns its data. A failure returns one error per issue, in order, with the path joined by '.' and the message copied. |
| RequestValidationProperties.SplitJoin | apps/web/src/mocks/utils/validate-request.ts:22 | Splitting a '.'-joined list of dot-free parts on '.' gives the parts back. |
| RequestValidationProperties.PathTextRoundTrip | apps/web/src/mocks/utils/validate-request.ts:17-25 | The error path keeps the issue path: splitting it on '.' recovers every key and index, provided no key contains a dot. |
| RequestValidationProperties.EmptyPathText | apps/web/src/mocks/utils/validate-request.ts:22 | An empty issue path prints as "". |
| RequestValidationProperties.MismatchError | apps/web/src/mocks/utils/validate-request.ts:17-31 | An onboarding body whose only fault is differing passwords is reported as the single error {path: "confirmPassword", message: "Passwords don't match"}. |
| HttpClient.StripTrailingSlash | apps/web/src/lib/http-client.ts:64 | Exactly one trailing '/' is removed when present; otherwise the base is unchanged. |
| HttpClient.NormalizePath | apps/web/src/lib/http-client.ts:65 | The path gets a leading '/' iff it lacks one. |
| HttpClient.GetHeaders | apps/web/src/lib/http-client.ts:69-75 | The headers are the union of default, config and custom headers. A custom header beats a config header, which beats the default Content-Type. |
| HttpClient.ParseError | apps/web/src/lib/http-client.ts:46-60 | The error keeps the status. A body that is not JSON, or is null, gives "An unexpected error occurred" and no errors. A JSON object passes its message through unless it is absent or null, when "An error occurred" is used, and passes its errors through. Other JSON gives "An error occurred" and no errors. |
| HttpClient.MessageText | apps/web/src/lib/http-client.ts:14-22 | `super(message)` turns the parsed message into a string. A string stays as it is. A number becomes its decimal numeral, with '-' iff it is negative. An array is joined with ",", and its conversion throws iff one of its elements' does. An object gives "[object Object]", or a TypeError iff it has its own `toString` key. |
| HttpClient.HandleResponse | apps/web/src/lib/http-client.ts:32-44 | The call throws iff the status is outside 200-299. It throws HttpClientError with the status, the errors, and the message text `MessageText` makes of the parsed message. It throws the TypeError instead iff that conversion throws. An ok body is read as JSON iff its content type contains 'application/json', and then the result is the parsed body, or a SyntaxError iff it does not parse. Otherwise it is the raw text. |
| HttpClient.PostBody | apps/web/src/lib/http-client.ts:96 | `post` sends a body iff the data is truthy, and then sends the data itself. |
| HttpClient.Request | apps/web/src/lib/http-client.ts:145-192 | Nothing is sent iff the request schema rejects the given data, or PUT/PATCH lacks data. The failure is then the ZodError carrying that schema's issues, or the missing-data error. Otherwise the request goes to the built URL with the method, merged headers and the method's body. A failed response is returned as handled. An ok response without a response schema is returned as handled. With a response schema, the result is the schema's output when it accepts the body and a ZodError with its issues when it rejects it. |
| HttpClient.AfterResponse | apps/web/src/modules/api/http-client.ts:10-23 | The hook always returns the same response. It redirects iff the page is not public and the status is 401 or 403, and then always to "/login". |
| HttpClientProperties.BuildUrlShape | apps/web/src/lib/http-client.ts:63-67 | The URL is the stripped base, one '/', then the path without its own leading '/'. |
| HttpClientProperties.OneSlashStripped | apps/web/src/lib/http-client.ts:64 | A base ending in "//" keeps one slash, so the URL carries a double slash. |
| HttpClientProperties.LeadingSlashOptional | apps/web/src/lib/http-client.ts:65 | A path with or without its leading '/' builds the same URL. |
| HttpClientProperties.HeaderPrecedence | apps/web/src/lib/http-client.ts:69-75 | A custom header wins over config, and config wins over the default. Without either, only Content-Type: application/json is sent. |
| HttpClientProperties.DefaultHeaderKept | apps/web/src/lib/http-client.ts:71 | Unless overridden, Content-Type is application/json. |
| HttpClientProperties.ErrorMessages | apps/web/src/lib/http-client.ts:46-60 | A non-JSON error body gives "An unexpected error occurred" with no errors. A JSON object without a message gives "An error occurred". Any other message is passed to the HttpClientError constructor. The thrown error carries that message's string conversion and the errors unchanged, or is the TypeError when the message cannot be converted. |
| HttpClientProperties.FalsyDataNotPosted | apps/web/src/lib/http-client.ts:96 | No body is posted exactly for null, false, 0 and "". |
| HttpClientProperties.RequestSchemaNeedsData | apps/web/src/lib/http-client.ts:156-158 | Without data, the request schema is never consulted. |
| HttpClientProperties.RawDataSent | apps/web/src/lib/http-client.ts:156-173 | After a request schema accepts the data, the raw data is sent, not the schema's output. |
| HttpClientProperties.MissingDataNotSent | apps/web/src/lib/http-client.ts:169-179 | PUT or PATCH without data throws "PUT requests require data" or "PATCH requests require data" before anything is sent. |
| HttpClientProperties.ResponseSchemaApplied | apps/web/src/lib/http-client.ts:186-191 | With a response schema, a sent request succeeds iff the response is handled and the schema accepts its body. A success is the schema's output. A rejected body throws a ZodError with the schema's issues. |
| HttpClientProperties.ErrorStatusSurfaces | apps/web/src/lib/http-client.ts:33-36 | A sent request whose response is not ok fails with HttpClientError. The error carries that status, the text of the parsed message and the parsed errors. It fails with the TypeError when the message cannot be made a string. |
| HttpClientProperties.NumberMessageReadsBack | apps/web/src/lib/http-client.ts:20 | A numeric message becomes a numeral that `parseInt` reads back to the same number. |
| HttpClientProperties.SingletonArrayText | apps/web/src/lib/http-client.ts:20 | A one-element array message prints as its element, or as "" when the element is null. |
| HttpClientProperties.StringArrayText | apps/web/src/lib/http-client.ts:20 | An array of comma-free strings prints as text that splits at ',' back into those strings. |
| HttpClientProperties.NonStringMessages | apps/web/src/lib/http-client.ts:20 | An illustration of `MessageText`: 42 gives "42", ["a","b"] gives "a,b", {} gives "[object Object]", and {"toString": 1} throws. |
| HttpClientProperties.ContainsEmbedded | apps/web/src/lib/http-client.ts:39 | `includes` finds a substring wherever it sits. |
| HttpClientProperties.JsonWithParameters | apps/web/src/lib/http-client.ts:38-41 | A content type of 'application/json' followed by parameters such as a charset is still read as JSON. |
| HttpClientProperties.NoRedirectLoopOnLogin | apps/web/src/modules/api/http-client.ts:14 | An illustration of `RedirectOnlyOnAuthFailure` and `PublicIff`: on "/login" no response redirects. |
| HttpClientProperties.RedirectOnlyOnAuthFailure | apps/web/src/modules/api/http-client.ts:16-22 | Off the public pages, exactly 401 and 403 redirect to "/login". |
| RouteProperties.PublicIff | apps/web/src/lib/utils/is-public-route.ts:1-5 | A path is public iff it starts with "/login" or "/onboarding". |
| RouteProperties.PublicWithRegisterIff | apps/web/src/lib/utils/index.ts:1-5 | A path is public iff it starts with "/login", "/register" or "/onboarding". |
| RouteProperties.PublicRoutesNest | apps/web/src/lib/utils/index.ts:1 | Every path public for the two-page helper is public for the three-page one. |
| RouteProperties.PrefixNotSegment | apps/web/src/lib/utils/is-public-route.ts:4 | Anything appended to a public path keeps it public, because matching is by raw prefix. |
| RouteProperties.LoginxIsPublic | apps/web/src/lib/utils/is-public-route.ts:4 | An illustration of `PublicIff`: "/loginx" is public. |
| RouteProperties.NotPublic | apps/web/src/lib/utils/is-public-route.ts:1-5 | An illustration of `PublicIff`: "/", "" and "/register" are not public. |
| RouteProperties.RegisterVariantExamples | apps/web/src/lib/utils/index.ts:1-5 | An illustration of `PublicWithRegisterIff`: "/registered" is public in the three-page helper, and "/" is not. |
| Theme.ColorPreference | apps/web/src/modules/theme/theme-context.tsx:19-32 | A stored 'light' or 'dark' is returned. Any other stored value gives dark iff the system prefers dark. Without a window the result is light. |
| Theme.Mount | apps/web/src/modules/theme/theme-context.tsx:46-49 | After mounting, a stored "light" or "dark" is the theme. Any other stored value, or none, gives dark iff the system prefers dark. The page reflects the theme. |
| Theme.Toggle | apps/web/src/modules/theme/theme-context.tsx:69-74 | A toggle changes the theme, persists the new theme's name and reflects it. |
| Theme.SystemChange | apps/web/src/modules/theme/theme-context.tsx:53-59 | A system change sets the theme to dark iff the system now prefers dark, but only when nothing (or "") is stored. Otherwise the theme and page are untouched. |
| ThemeProperties.ToggleTwice | apps/web/src/modules/theme/theme-context.tsx:69-74 | Toggling twice restores the theme. |
| ThemeProperties.ReloadKeepsToggle | apps/web/src/modules/theme/theme-context.tsx:19-24 | After a toggle, a reload shows the toggled theme whatever the system prefers. |
| ThemeProperties.UnknownStoredIgnored | apps/web/src/modules/theme/theme-context.tsx:22-31 | An unrecognised stored value is treated as no preference at mount. |
| ThemeProperties.ReflectedTracksTheme | apps/web/src/modules/theme/theme-context.tsx:48-74 | Through any sequence of toggles and system changes, the page shows the provider's theme. |
| ThemeProperties.SystemIgnoredOncePersisted | apps/web/src/modules/theme/theme-context.tsx:53-59 | Once a theme is persisted, the theme after any events equals the theme after the toggles alone. |
| ThemeProperties.SystemIgnoredAfterToggle | apps/web/src/modules/theme/theme-context.tsx:54-55 | After any toggle, later system changes never move the theme. |
| Stepper.Views | apps/web/src/components/stepper/stepper.tsx:20-24 | There is one view per step, each classified by its own index. |
| StepperProperties.StatusOfStep | apps/web/src/components/stepper/stepper.tsx:21-23 | Step i is completed iff i < currentStep - 1 and active iff i = currentStep - 1, never both. |
| StepperProperties.AtMostOneActive | apps/web/src/components/stepper/stepper.tsx:23 | At most one step is active. |
| StepperProperties.CompletedPrefix | apps/web/src/components/stepper/stepper.tsx:22-23 | The completed steps form a prefix, followed directly by the active step. |
| StepperProperties.IconOfStep | apps/web/src/components/stepper/stepper.tsx:36 | A completed step shows the check icon; any other shows its number i + 1. |
| StepperProperties.ConnectorOfStep | apps/web/src/components/stepper/stepper.tsx:24 | Every step but the last has a connector line, marked completed iff its step is. |
| StepperProperties.CompletedSteps | apps/web/src/components/stepper/stepper.tsx:22 | The number of completed steps is currentStep - 1, clamped to between 0 and the number of steps. |

## Left out

- Password hashing (Argon2) and verification are parameters, because they are a foreign library. `lib/hashing` is not part of this model.
- JWT signing and verification are parameters. An expired or tampered token is simply one the verifier maps to `None`.
- Auth.Login: the token is issued by an abstract `issue(claims)`, and "setting the cookie" appends that token to the response. `AuthService.login` calls `generateToken` and `setTokenCookie`, which `JwtService` does not define, so their cookie attributes are unknown.
- Email and URL syntax (`z.email`, `z.url`) are predicates passed in as `Formats`.
- Schemas.Check: a field of the wrong type reports zod's default "Invalid input: expected string, received …" message. The model does not cover zod's issue codes or its nested union errors.
- Schemas.Check: a companyUrl string that is neither "" nor a URL reports "Invalid URL" as a continuable issue. This follows the zod 4 releases in which a union whose only non-aborted option failed reports that option's issues. Earlier zod 4 releases report an aborting "Invalid input" union issue instead, which would also skip the password refinement.
- Schemas.RequestData: the body is taken to have the shape the validation pipe guarantees (`PipeShaped`). The controller is only reached through the pipe.
- Store.LicenseLookup: a query without a condition returns whichever row the database yields first. The model takes the first row in table order.
- `fetch`, `response.json()` and `JSON.stringify` are parameters or left abstract. Credentials mode, abort signals and network errors are left out.
- HttpClient.Truthy: JSON numbers are integers, so NaN and fractions are not modelled.
- HttpClient.MessageText: JSON numbers are integers. The exponent form JavaScript prints from 1e21 upward, and fractions, are not modelled.
- HttpClient.GetHeaders: header names are compared as written. The case-insensitive merging that `fetch`'s `Headers` performs is left out.
- `window.location`, `localStorage`, `matchMedia` and the DOM attribute are fields of the theme state or plain values. React rendering, hooks, effects and subscriptions are not modelled.
- Slug.GenerateSlug: `toLowerCase` is modelled on ASCII letters only, because Unicode case mapping is a library table.
- Tokens.ParseExpiresIn: `parseInt` is modelled as an optional sign followed by digits. Leading whitespace, radix prefixes and floating-point overflow are left out.
- Concurrent onboardings and transaction isolation are left to the database and not modelled.
- Rows are linked by foreign keys, but the ORM's `relations` loading is modelled as a lookup by id. A dangling reference appears as a TypeError, which a valid store never has.
- Repositories (except the license lookup), entities, modules, controllers (except the field hand-off in `Schemas.RequestData`), config loaders and migrations are left out, beyond their unique constraints and default expiry strings.
- Stepper.Views: `currentStep` is a JavaScript number, modelled as an integer. Two cases are not modelled. A fractional step marks the steps below it completed, with none active. NaN marks no step completed or active.
- The mock handlers, tests, React components and pages other than the listed helpers are left out.
- RequestValidation.ValidateRequest: the mock reads `result.error.errors`. The model takes that to be the issue list.

## Findings

| source | as written | input that shows it | evidently intended | confidence | as-written member | corrected member |
|---|---|---|---|---|---|---|
| packages/contracts/src/schemas/onboarding.ts:3-11 | `onboardingSchema` declares no `licenseKey`, and zod strips undeclared keys. The controller therefore calls `onboardUser` with `licenseKey` undefined. TypeORM drops an undefined condition, so `findByLicenseKey` returns the first license row whatever key was sent. | A valid onboarding body with `"licenseKey": "WRONG"`, against a store whose first license is unexpired and unused, onboards on that license instead of failing with "Invalid license key". | Declare `licenseKey` as a required string, as `OnboardingRequestDto` does. | not executed | SchemaProperties.KeyNeverChecked | SchemaProperties.LicenseKeyKept |

=== FILE: auth.dfy ===
/**
 * `AuthService`: password login over local identities, and the "who am I"
 * profile lookup. Password verification and token issuance are parameters.
 */
module Auth {
  import opened Wrappers
  import opened Exceptions
  import opened Store

  const InvalidCredentials := HttpException(Unauthorized, "Invalid credentials")
  const UserNotFound := HttpException(NotFound, "User not found")

  /** The claims a session token is issued for. */
  datatype Claims = Claims(userId: Id, email: string, tenantId: Id)

  /** What login leaves behind: the tokens attached to the response, and whether it threw. */
  datatype LoginReply = LoginReply(response: seq<string>, result: Result<(), HttpException>)

  datatype TenantDto = TenantDto(name: string)

  /** The profile `GET /v1/auth/me` returns. */
  datatype UserDto = UserDto(userId: Id, email: string, fullName: string, tenant: TenantDto)

  /** A stored hash login accepts: present and not the empty string. */
  predicate UsableHash(h: Option<string>) {
    h.Some? && h.value != ""
  }

  /**
   * `login(email, password, res)`. `verify(password, hash)` stands for the
   * password hasher; `issue` signs a token for the given claims and `response`
   * holds the tokens already set on the response.
   */
  function Login(db: Db, email: string, password: string, verify: (string, string) -> bool,
                 issue: Claims -> string, response: seq<string>): (r: LoginReply)
    ensures r.result.Failure? ==> r.response == response
    ensures r.result.Failure? ==> r.result.error in {InvalidCredentials, TypeError}
    ensures r.result.Success? ==>
      exists x, u :: x in db.identities && x.provider == LocalProvider && x.providerId == email
                     && UsableHash(x.passwordHash) && verify(password, x.passwordHash.value)
                     && u in db.users && u.id == x.userId
                     && r.response == response + [issue(Claims(u.id, u.email, u.tenantId))]
  {
    match IdentityByProvider(db, LocalProvider, email)
    case None => LoginReply(response, Failure(InvalidCredentials))
    case Some(identity) =>
      if !UsableHash(identity.passwordHash) then LoginReply(response, Failure(InvalidCredentials))
      else if !verify(password, identity.passwordHash.value) then LoginReply(response, Failure(InvalidCredentials))
      else
        match UserById(db, identity.userId)
        case None => LoginReply(response, Failure(TypeError))
        case Some(user) =>
          LoginReply(response + [issue(Claims(user.id, user.email, user.tenantId))], Success(()))
  }

  /** `getUserById(userId)`: the profile of a user and the name of its tenant. */
  function GetUserById(db: Db, userId: Id): (r: Result<UserDto, HttpException>)
    ensures r == Failure(UserNotFound) <==> forall u :: u in db.users ==> u.id != userId
    ensures r.Failure? ==> r.error in {UserNotFound, TypeError}
    ensures r.Success? ==>
      exists u, t :: u in db.users && u.id == userId && t in db.tenants && t.id == u.tenantId
                     && r.value == UserDto(u.id, u.email, u.fullName, TenantDto(t.name))
  {
    match UserById(db, userId)
    case None => Failure(UserNotFound)
    case Some(user) =>
      match TenantById(db, user.tenantId)
      case None => Failure(TypeError)
      case Some(tenant) => Success(UserDto(user.id, user.email, user.fullName, TenantDto(tenant.name)))
  }
}

/** Login and profile lookup, stated against the store. */
module AuthProperties {
  import opened Wrappers
  import opened Exceptions
  import opened Store
  import FindFacts
  import opened Auth

  /**
   * An unknown email and a wrong password are indistinguishable: both throw
   * Unauthorized "Invalid credentials" and set nothing on the response.
   */
  lemma NoAccountEnumeration(db1: Db, email1: string, password1: string,
                             db2: Db, email2: string, password2: string,
                             verify: (string, string) -> bool, issue: Claims -> string, response: seq<string>)
    requires IdentityProvidersUnique(db2.identities)
    requires forall x :: x in db1.identities ==> !(x.provider == LocalProvider && x.providerId == email1)
    requires exists x :: x in db2.identities && x.provider == LocalProvider && x.providerId == email2
                         && UsableHash(x.passwordHash) && !verify(password2, x.passwordHash.value)
    ensures Login(db1, email1, password1, verify, issue, response)
            == Login(db2, email2, password2, verify, issue, response)
            == LoginReply(response, Failure(InvalidCredentials))
  {
    var x :| x in db2.identities && x.provider == LocalProvider && x.providerId == email2
             && UsableHash(x.passwordHash) && !verify(password2, x.passwordHash.value);
    IdentityByProviderUnique(db2, LocalProvider, email2, x);
  }

  /** An identity without a usable password hash (a federated one) cannot log in with a password. */
  lemma NoPasswordNoLogin(db: Db, email: string, password: string,
                          verify: (string, string) -> bool, issue: Claims -> string, response: seq<string>)
    requires IdentityProvidersUnique(db.identities)
    requires exists x :: x in db.identities && x.provider == LocalProvider && x.providerId == email
                         && !UsableHash(x.passwordHash)
    ensures Login(db, email, password, verify, issue, response) == LoginReply(response, Failure(InvalidCredentials))
  {
    var x :| x in db.identities && x.provider == LocalProvider && x.providerId == email && !UsableHash(x.passwordHash);
    IdentityByProviderUnique(db, LocalProvider, email, x);
  }

  /**
   * Login succeeds exactly when the local identity for the email has a usable
   * hash the password verifies against; the token is then issued for the
   * identity's user.
   */
  lemma LoginSucceedsIff(db: Db, email: string, password: string,
                         verify: (string, string) -> bool, issue: Claims -> string, response: seq<string>)
    requires Consistent(db)
    ensures Login(db, email, password, verify, issue, response).result.Success? <==>
      exists x :: x in db.identities && x.provider == LocalProvider && x.providerId == email
                  && UsableHash(x.passwordHash) && verify(password, x.passwordHash.value)
    ensures Login(db, email, password, verify, issue, response).result.Failure? ==>
      Login(db, email, password, verify, issue, response).result.error == InvalidCredentials
  {
    if x :| x in db.identities && x.provider == LocalProvider && x.providerId == email {
      IdentityByProviderUnique(db, LocalProvider, email, x);
      var u :| u in db.users && u.id == x.userId;
      UserByIdUnique(db, u);
    }
  }

  /** Login reads only the local identity for the given email: other identities change nothing. */
  lemma LoginIgnoresOtherIdentities(db: Db, others: seq<Identity>, email: string, password: string,
                                    verify: (string, string) -> bool, issue: Claims -> string, response: seq<string>)
    requires forall i :: 0 <= i < |others| ==> !(others[i].provider == LocalProvider && others[i].providerId == email)
    ensures Login(db.(identities := db.identities + others), email, password, verify, issue, response)
            == Login(db, email, password, verify, issue, response)
  {
    FindFacts.FindFirstIgnoresNonMatching(db.identities, others,
      (x: Identity) => x.provider == LocalProvider && x.providerId == email);
  }

  /** Every stored user's profile is found, with the name of its own tenant. */
  lemma ProfileOfStoredUser(db: Db, u: User, t: Tenant)
    requires Consistent(db)
    requires u in db.users && t in db.tenants && t.id == u.tenantId
    ensures GetUserById(db, u.id) == Success(UserDto(u.id, u.email, u.fullName, TenantDto(t.name)))
  {
    UserByIdUnique(db, u);
    TenantByIdUnique(db, t);
  }
}

=== FILE: guards.dfy ===
/**
 * The two `JwtAuthGuard.canActivate` variants. The one under `auth/guards`
 * accepts only access tokens; the one under `common/guards` accepts any token
 * that verifies. Token verification is a parameter (`None` when it throws).
 */
module Guards {
  import opened Wrappers
  import opened Exceptions
  import opened Tokens

  const NoAccessToken := HttpException(Unauthorized, "No access token provided")
  const InvalidOrExpired := HttpException(Unauthorized, "Invalid or expired token")
  /** Thrown inside the strict guard's `try` block, and replaced by its `catch`. */
  const InvalidTokenType := HttpException(Unauthorized, "Invalid token type")

  /** The parts of an Express request the guards touch. */
  datatype Request = Request(cookies: Option<map<string, string>>, user: Option<JwtPayload>)

  /** The request after the guard ran, and whether it returned or threw. */
  datatype GuardReply = GuardReply(request: Request, result: Result<bool, HttpException>)

  /** `request.cookies?.access_token`. */
  function CookieToken(cookies: Option<map<string, string>>): Option<string> {
    if cookies.Some? && AccessCookie in cookies.value then Some(cookies.value[AccessCookie]) else None
  }

  /** `!token` is false only for a present, non-empty string. */
  predicate Present(token: Option<string>) {
    token.Some? && token.value != ""
  }

  /** The `try` block of the strict guard: verify, then insist on an access token. */
  function VerifyAccess(token: string, verify: string -> Option<JwtPayload>): Result<JwtPayload, HttpException> {
    match verify(token)
    case None => Failure(InvalidOrExpired)
    case Some(payload) => if payload.tokenType != AccessType then Failure(InvalidTokenType) else Success(payload)
  }

  /** `canActivate` of `auth/guards/jwt-auth.guard.ts`. */
  function CanActivateStrict(req: Request, verify: string -> Option<JwtPayload>): (r: GuardReply)
    ensures r.result.Success? ==> r.result.value
    ensures r.result.Failure? ==> r.request == req && r.result.error in {NoAccessToken, InvalidOrExpired}
    ensures r.result == Failure(NoAccessToken) <==> !Present(CookieToken(req.cookies))
    ensures r.result.Success? <==>
      Present(CookieToken(req.cookies)) && verify(CookieToken(req.cookies).value).Some?
      && verify(CookieToken(req.cookies).value).value.tokenType == AccessType
    ensures r.result.Success? ==> r.request == req.(user := verify(CookieToken(req.cookies).value))
  {
    var token := CookieToken(req.cookies);
    if !Present(token) then GuardReply(req, Failure(NoAccessToken))
    else
      match VerifyAccess(token.value, verify)
      // The catch block turns every exception of the try block into the same one.
      case Failure(_) => GuardReply(req, Failure(InvalidOrExpired))
      case Success(payload) => GuardReply(req.(user := Some(payload)), Success(true))
  }

  /**
   * `canActivate` of `common/guards/jwt-auth.guard.ts`. It reads
   * `request.cookies.access_token` without `?.`, so a request without a
   * cookies object makes it throw a TypeError.
   */
  function CanActivateLax(req: Request, verify: string -> Option<JwtPayload>): (r: GuardReply)
    ensures r.result.Success? ==> r.result.value
    ensures r.result.Failure? ==> r.request == req
    ensures r.result == Failure(TypeError) <==> req.cookies.None?
    ensures req.cookies.Some? ==>
      (r.result == Failure(NoAccessToken) <==> !Present(CookieToken(req.cookies)))
    ensures r.result.Success? <==> Present(CookieToken(req.cookies)) && verify(CookieToken(req.cookies).value).Some?
    ensures r.result.Success? ==> r.request == req.(user := verify(CookieToken(req.cookies).value))
  {
    if req.cookies.None? then GuardReply(req, Failure(TypeError))
    else
      var token := CookieToken(req.cookies);
      if !Present(token) then GuardReply(req, Failure(NoAccessToken))
      else
        match verify(token.value)
        case None => GuardReply(req, Failure(InvalidOrExpired))
        case Some(payload) => GuardReply(req.(user := Some(payload)), Success(true))
  }
}

/** How the two guards relate, and how they treat the tokens the token service issues. */
module GuardProperties {
  import opened Wrappers
  import opened Exceptions
  import opened Tokens
  import opened Guards

  /** Whatever the strict guard lets through, the lax guard lets through with the same request. */
  lemma StrictImpliesLax(req: Request, verify: string -> Option<JwtPayload>)
    requires CanActivateStrict(req, verify).result.Success?
    ensures CanActivateLax(req, verify) == CanActivateStrict(req, verify)
  {
  }

  /**
   * The guards disagree on a verifiable non-access token: the strict guard
   * answers "Invalid or expired token" (its own "Invalid token type" is
   * swallowed), the lax guard accepts it.
   */
  lemma GuardsDisagreeOnTokenType(req: Request, verify: string -> Option<JwtPayload>)
    requires Present(CookieToken(req.cookies))
    requires verify(CookieToken(req.cookies).value).Some?
    requires verify(CookieToken(req.cookies).value).value.tokenType != AccessType
    ensures CanActivateStrict(req, verify) == GuardReply(req, Failure(InvalidOrExpired))
    ensures CanActivateLax(req, verify).result == Success(true)
  {
  }

  /** A request carrying `token` in its `access_token` cookie, before any guard ran. */
  function WithCookie(token: string): Request {
    Request(Some(map[AccessCookie := token]), None)
  }

  /**
   * With a verifier that recovers what was signed, the access token the
   * service issues passes the strict guard and attaches its claims, while the
   * refresh token is rejected by the strict guard and accepted by the lax one.
   */
  lemma IssuedTokensAtTheGuards(config: JwtConfig, sign: SignRequest -> string, verify: string -> Option<JwtPayload>,
                                userId: string, email: string, tenantId: string)
    requires forall q :: verify(sign(q)) == Some(q.payload)
    requires sign(AccessSignRequest(config, userId, email, tenantId)) != ""
    requires sign(RefreshSignRequest(config, userId, email, tenantId)) != ""
    ensures var pair := GenerateTokenPair(config, sign, userId, email, tenantId);
      && CanActivateStrict(WithCookie(pair.accessToken), verify)
         == GuardReply(WithCookie(pair.accessToken).(user := Some(JwtPayload(userId, email, tenantId, AccessType))),
                       Success(true))
      && CanActivateStrict(WithCookie(pair.refreshToken), verify).result == Failure(InvalidOrExpired)
      && CanActivateLax(WithCookie(pair.refreshToken), verify).request.user
         == Some(JwtPayload(userId, email, tenantId, RefreshType))
  {
    var a := AccessSignRequest(config, userId, email, tenantId);
    var b := RefreshSignRequest(config, userId, email, tenantId);
    assert GenerateTokenPair(config, sign, userId, email, tenantId) == TokenPair(sign(a), sign(b));
    assert verify(sign(a)) == Some(a.payload);
    assert verify(sign(b)) == Some(b.payload);
  }
}

=== FILE: httpclient.dfy ===
/**
 * The fetch-based `HttpClient` of the web app. `fetch` and `response.json()`
 * are parameters: `fetch` maps the request it is given to a response, and
 * `parseJson` returns `None` when the body is not JSON.
 */
module HttpClient {
  import opened Wrappers
  import opened JsonValues
  import Routes
  import Tokens

  type Headers = map<string, string>

  datatype Method = Get | Post | Put | Patch | Delete

  /** What the client hands to `fetch`; credentials are always 'include'. */
  datatype FetchRequest = FetchRequest(url: string, verb: Method, headers: Headers, body: Option<Json>)

  datatype Response = Response(status: int, contentType: Option<string>, body: string)

  /** An ok response is read as JSON or as text. */
  datatype Body = JsonBody(json: Json) | TextBody(text: string)

  /** `ApiError`: `message` is whatever the body's `message` field held. */
  datatype ApiError = ApiError(message: Json, statusCode: int, errors: Option<Json>)

  /** `HttpClientError`: `message` is the text `super(message)` made of the parsed message. */
  datatype ClientError =
    | HttpClientError(statusCode: int, message: string, errors: Option<Json>)
    | MessageTypeError               // `super(message)` could not convert the message to a string
    | SyntaxError                    // `response.json()` on a body that is not JSON
    | MissingData(reason: string)    // `new Error('PUT requests require data')` and its PATCH twin
    | ZodError(issues: seq<Issue>)   // `schema.parse` rejected the value

  const DefaultContentType := map["Content-Type" := "application/json"]
  const ErrorFallback := "An error occurred"
  const UnexpectedFallback := "An unexpected error occurred"

  /** `s.includes(sub)`. */
  predicate Contains(s: string, sub: string) {
    Routes.StartsWith(s, sub) || (|s| > 0 && Contains(s[1..], sub))
  }

  /** `replace(/\/$/, '')`: drop one trailing slash. */
  function StripTrailingSlash(s: string): (r: string)
    ensures |s| > 0 && s[|s| - 1] == '/' ==> r + "/" == s
    ensures !(|s| > 0 && s[|s| - 1] == '/') ==> r == s
  {
    if |s| > 0 && s[|s| - 1] == '/' then s[..|s| - 1] else s
  }

  /** `path.startsWith('/') ? path : '/' + path`. */
  function NormalizePath(path: string): (r: string)
    ensures |r| > 0 && r[0] == '/'
    ensures Routes.StartsWith(path, "/") ==> r == path
    ensures !Routes.StartsWith(path, "/") ==> r == "/" + path
  {
    if |path| > 0 && path[0] == '/' then path else "/" + path
  }

  /** `buildUrl`; `HttpClientProperties.BuildUrlShape` states the URL it builds. */
  function BuildUrl(baseUrl: string, path: string): string
  {
    StripTrailingSlash(baseUrl) + NormalizePath(path)
  }

  /** `{'Content-Type': 'application/json', ...config.headers, ...customHeaders}`. */
  function GetHeaders(configHeaders: Option<Headers>, customHeaders: Option<Headers>): (h: Headers)
    ensures forall k :: k in h <==> k in DefaultContentType || (configHeaders.Some? && k in configHeaders.value)
                                    || (customHeaders.Some? && k in customHeaders.value)
    ensures forall k :: k in h ==>
      h[k] == (if customHeaders.Some? && k in customHeaders.value then customHeaders.value[k]
               else if configHeaders.Some? && k in configHeaders.value then configHeaders.value[k]
               else DefaultContentType[k])
  {
    var config := if configHeaders.Some? then configHeaders.value else map[];
    var custom := if customHeaders.Some? then customHeaders.value else map[];
    DefaultContentType + config + custom
  }

  /** `response.ok`. */
  predicate Ok(status: int) {
    200 <= status <= 299
  }

  /**
   * `parseError`: the body's `message`, or a fallback when it has none, or
   * another fallback when reading it throws (a body that is not JSON, or the
   * JSON `null`, whose `.message` is a TypeError).
   */
  function ParseError(response: Response, parseJson: string -> Option<Json>): (e: ApiError)
    ensures e.statusCode == response.status
    ensures e.message == JString(UnexpectedFallback) <==>
      (parseJson(response.body) in {None, Some(JNull)}
       || (parseJson(response.body).value.JObject? && Lookup(parseJson(response.body).value.fields, "message") == Some(JString(UnexpectedFallback))))
    ensures parseJson(response.body) in {None, Some(JNull)} ==> e.errors.None?
    ensures parseJson(response.body).Some? && parseJson(response.body).value.JObject? ==>
      var f := parseJson(response.body).value.fields;
      && e.errors == Lookup(f, "errors")
      && (Lookup(f, "message") !in {None, Some(JNull)} ==> Some(e.message) == Lookup(f, "message"))
      && (Lookup(f, "message") in {None, Some(JNull)} ==> e.message == JString(ErrorFallback))
    ensures parseJson(response.body).Some? && !parseJson(response.body).value.JObject?
            && parseJson(response.body).value != JNull ==>
      e.message == JString(ErrorFallback) && e.errors.None?
  {
    match parseJson(response.body)
    case None => ApiError(JString(UnexpectedFallback), response.status, None)
    case Some(JNull) => ApiError(JString(UnexpectedFallback), response.status, None)
    case Some(JObject(fields)) =>
      var message := Lookup(fields, "message");
      ApiError(if message.None? || message == Some(JNull) then JString(ErrorFallback) else message.value,
               response.status, Lookup(fields, "errors"))
    case Some(_) => ApiError(JString(ErrorFallback), response.status, None)
  }

  /**
   * `String(message)`, the conversion the `Error` constructor applies to its
   * argument; `None` when the conversion throws a TypeError. An array is
   * joined with ","; a JSON object has no callable `toString` of its own, so
   * it prints as "[object Object]" unless it carries a `toString` key, which
   * shadows the inherited method and makes the conversion throw.
   */
  function MessageText(m: Json): (t: Option<string>)
    ensures m.JString? ==> t == Some(m.s)
    ensures m.JObject? ==> (t.None? <==> "toString" in m.fields)
    ensures m.JObject? && t.Some? ==> t.value == "[object Object]"
    ensures m.JNumber? ==>
      && t.Some? && |t.value| > 0
      && (m.n < 0 <==> t.value[0] == '-')
      && Tokens.AllDigits(if m.n < 0 then t.value[1..] else t.value)
    ensures m.JArray? ==> (t.None? <==> exists i :: 0 <= i < |m.items| && MessageText(m.items[i]).None?)
    ensures m.JArray? && |m.items| == 0 ==> t == Some("")
    decreases m, 1, 0
  {
    match m
    case JNull => Some("null")
    case JBool(b) => Some(if b then "true" else "false")
    case JNumber(n) => Some(if n < 0 then "-" + Tokens.Numeral(-n) else Tokens.Numeral(n))
    case JString(s) => Some(s)
    case JArray(items) => JoinedText(m, |items|)
    case JObject(fields) => if "toString" in fields then None else Some("[object Object]")
  }

  /** An array element as `join` prints it: null as "", anything else as `String` does. */
  function ElementText(e: Json): (t: Option<string>)
    ensures t.None? <==> MessageText(e).None?
    decreases e, 1, 1
  {
    if e.JNull? then Some("") else MessageText(e)
  }

  /** `join(",")` of the array's first `k` elements; it throws when one of them does. */
  function JoinedText(arr: Json, k: nat): (t: Option<string>)
    requires arr.JArray? && k <= |arr.items|
    ensures t.None? <==> exists i :: 0 <= i < k && ElementText(arr.items[i]).None?
    decreases arr, 0, k
  {
    if k == 0 then Some("")
    else
      var head := JoinedText(arr, k - 1);
      var last := ElementText(arr.items[k - 1]);
      if head.None? || last.None? then None
      else if k == 1 then last
      else Some(head.value + "," + last.value)
  }

  /** `handleResponse`. */
  function HandleResponse(response: Response, parseJson: string -> Option<Json>): (r: Result<Body, ClientError>)
    ensures r.Failure? && (r.error.HttpClientError? || r.error.MessageTypeError?) <==> !Ok(response.status)
    ensures r.Failure? && r.error.MessageTypeError? <==>
      !Ok(response.status) && MessageText(ParseError(response, parseJson).message).None?
    ensures r.Failure? && r.error.HttpClientError? ==>
      && r.error.statusCode == response.status
      && Some(r.error.message) == MessageText(ParseError(response, parseJson).message)
      && r.error.errors == ParseError(response, parseJson).errors
    ensures r.Failure? && r.error.SyntaxError? <==>
      Ok(response.status) && response.contentType.Some? && Contains(response.contentType.value, "application/json")
      && parseJson(response.body).None?
    ensures r.Success? && r.value.JsonBody? ==> parseJson(response.body) == Some(r.value.json)
    ensures r.Success? && r.value.TextBody? ==> r.value.text == response.body
    ensures Ok(response.status) && r.Success? ==>
      (r.value.JsonBody? <==> response.contentType.Some? && Contains(response.contentType.value, "application/json"))
  {
    if !Ok(response.status) then
      var error := ParseError(response, parseJson);
      match MessageText(error.message)
      case None => Failure(MessageTypeError)
      case Some(text) => Failure(HttpClientError(response.status, text, error.errors))
    else if response.contentType.Some? && Contains(response.contentType.value, "application/json") then
      match parseJson(response.body)
      case None => Failure(SyntaxError)
      case Some(json) => Success(JsonBody(json))
    else Success(TextBody(response.body))
  }

  /** JavaScript truthiness of a JSON value. */
  predicate Truthy(v: Json) {
    match v
    case JNull => false
    case JBool(b) => b
    case JNumber(n) => n != 0
    case JString(s) => s != ""
    case JArray(_) => true
    case JObject(_) => true
  }

  /** The body `post` sends: `data ? JSON.stringify(data) : undefined`. */
  function PostBody(data: Option<Json>): (body: Option<Json>)
    ensures body.Some? <==> data.Some? && Truthy(data.value)
    ensures body.Some? ==> body == data
  {
    if data.Some? && Truthy(data.value) then data else None
  }

  /** The body a method sends: none for GET and DELETE, the raw data for PUT and PATCH. */
  function MethodBody(verb: Method, data: Option<Json>): Option<Json> {
    match verb
    case Get => None
    case Delete => None
    case Post => PostBody(data)
    case Put => data
    case Patch => data
  }

  datatype ClientConfig = ClientConfig(baseUrl: string, headers: Option<Headers>)

  datatype RequestOptions = RequestOptions(
    verb: Method,
    data: Option<Json>,
    requestSchema: Option<Json -> SafeParse>,
    responseSchema: Option<Json -> SafeParse>,
    headers: Option<Headers>)

  /** What `request` sent, if anything, and what it returned or threw. */
  datatype Outcome = Outcome(sent: Option<FetchRequest>, result: Result<Body, ClientError>)

  /** The value a response schema parses. */
  function BodyValue(b: Body): Json {
    match b
    case JsonBody(j) => j
    case TextBody(t) => JString(t)
  }

  /** `request`: validate the data, dispatch on the method, then validate the response. */
  function Request(config: ClientConfig, path: string, options: RequestOptions,
                   fetch: FetchRequest -> Response, parseJson: string -> Option<Json>): (o: Outcome)
    ensures o.sent.Some? ==> (
      && o.sent.value.url == BuildUrl(config.baseUrl, path)
      && o.sent.value.verb == options.verb
      && o.sent.value.headers == GetHeaders(config.headers, options.headers)
      && o.sent.value.body == MethodBody(options.verb, options.data))
    ensures o.sent.None? <==>
      (options.requestSchema.Some? && options.data.Some? && options.requestSchema.value(options.data.value).ParseErr?)
      || ((options.verb == Put || options.verb == Patch) && options.data.None?)
    ensures o.sent.None? ==> o.result.Failure? && (o.result.error.ZodError? || o.result.error.MissingData?)
    ensures o.sent.None? && options.requestSchema.Some? && options.data.Some?
            && options.requestSchema.value(options.data.value).ParseErr? ==>
      o.result == Failure(ZodError(options.requestSchema.value(options.data.value).issues))
    ensures o.sent.Some? && options.responseSchema.None? ==> o.result == HandleResponse(fetch(o.sent.value), parseJson)
    ensures o.sent.Some? && options.responseSchema.Some? ==>
      var h := HandleResponse(fetch(o.sent.value), parseJson);
      && (h.Failure? ==> o.result == h)
      && (h.Success? ==>
            var parsed := options.responseSchema.value(BodyValue(h.value));
            && (parsed.ParseOk? ==> o.result == Success(JsonBody(parsed.data)))
            && (parsed.ParseErr? ==> o.result == Failure(ZodError(parsed.issues))))
  {
    if options.requestSchema.Some? && options.data.Some?
       && options.requestSchema.value(options.data.value).ParseErr?
    then Outcome(None, Failure(ZodError(options.requestSchema.value(options.data.value).issues)))
    else if options.verb == Put && options.data.None? then
      Outcome(None, Failure(MissingData("PUT requests require data")))
    else if options.verb == Patch && options.data.None? then
      Outcome(None, Failure(MissingData("PATCH requests require data")))
    else
      var sent := FetchRequest(BuildUrl(config.baseUrl, path), options.verb,
                               GetHeaders(config.headers, options.headers),
                               MethodBody(options.verb, options.data));
      var handled := HandleResponse(fetch(sent), parseJson);
      if handled.Failure? || options.responseSchema.None? then Outcome(Some(sent), handled)
      else match options.responseSchema.value(BodyValue(handled.value))
        case ParseErr(issues) => Outcome(Some(sent), Failure(ZodError(issues)))
        case ParseOk(data) => Outcome(Some(sent), Success(JsonBody(data)))
  }

  /**
   * The `afterResponse` hook of the ky client: off the public pages, a 401
   * or 403 sends the browser to "/login". The response is returned as is.
   */
  datatype HookResult = HookResult(redirect: Option<string>, response: Response)

  function AfterResponse(pathname: string, response: Response): (r: HookResult)
    ensures r.response == response
    ensures r.redirect.Some? <==> !Routes.IsPublicRoute(pathname) && response.status in {401, 403}
    ensures r.redirect.Some? ==> r.redirect.value == "/login"
  {
    if Routes.IsPublicRoute(pathname) then HookResult(None, response)
    else if response.status == 401 || response.status == 403 then HookResult(Some("/login"), response)
    else HookResult(None, response)
  }
}

module HttpClientProperties {
  import opened Wrappers
  import opened JsonValues
  import opened HttpClient
  import Routes
  import RouteProperties
  import Tokens
  import TokenProperties

  /** The URL is the base without its last slash, then exactly one '/', then the path without its leading one. */
  lemma BuildUrlShape(baseUrl: string, path: string)
    ensures var p := if Routes.StartsWith(path, "/") then path[1..] else path;
      BuildUrl(baseUrl, path) == StripTrailingSlash(baseUrl) + "/" + p
  {
    if Routes.StartsWith(path, "/") {
      assert path == "/" + path[1..];
    }
  }

  /** Only one trailing slash is dropped: a base ending in "//" keeps one of them. */
  lemma OneSlashStripped(host: string, path: string)
    requires Routes.StartsWith(path, "/")
    ensures BuildUrl(host + "//", path) == host + "/" + path
  {
    assert (host + "//")[..|host + "//"| - 1] == host + "/";
  }

  /** A path with or without its leading slash gives the same URL. */
  lemma LeadingSlashOptional(baseUrl: string, path: string)
    requires !Routes.StartsWith(path, "/")
    ensures BuildUrl(baseUrl, "/" + path) == BuildUrl(baseUrl, path)
  {
    assert Routes.StartsWith("/" + path, "/");
  }

  /** Custom headers beat the configured ones, which beat the default content type. */
  lemma HeaderPrecedence(config: Headers, custom: Headers, k: string)
    ensures k in custom ==> GetHeaders(Some(config), Some(custom))[k] == custom[k]
    ensures k !in custom && k in config ==> GetHeaders(Some(config), Some(custom))[k] == config[k]
    ensures GetHeaders(None, None) == DefaultContentType
  {
  }

  /** Without overrides the request declares a JSON body. */
  lemma DefaultHeaderKept(config: Option<Headers>, custom: Option<Headers>)
    requires config.None? || "Content-Type" !in config.value
    requires custom.None? || "Content-Type" !in custom.value
    ensures GetHeaders(config, custom)["Content-Type"] == "application/json"
  {
  }

  /**
   * The messages a failed response can carry: the fallback for a body that is
   * not JSON, the other fallback for an object without a message, and
   * otherwise the body's own errors with the text of its message, or the
   * TypeError when that message cannot be made a string.
   */
  lemma ErrorMessages(response: Response, parseJson: string -> Option<Json>, f: map<string, Json>, m: Json)
    requires !Ok(response.status)
    ensures var r := HandleResponse(response, parseJson);
      && (parseJson(response.body).None? ==> r.error == HttpClientError(response.status, UnexpectedFallback, None))
      && (parseJson(response.body) == Some(JObject(f)) && Lookup(f, "message").None?
          ==> r.error == HttpClientError(response.status, ErrorFallback, Lookup(f, "errors")))
      && (parseJson(response.body) == Some(JObject(f)) && Lookup(f, "message") == Some(m) && m != JNull
          ==> r.error == (if MessageText(m).Some? then HttpClientError(response.status, MessageText(m).value, Lookup(f, "errors"))
                          else MessageTypeError))
  {
  }

  /** `post` sends no body for null, false, 0 or "", and sends any other value unchanged. */
  lemma FalsyDataNotPosted(data: Json)
    ensures PostBody(Some(data)).None? <==> data in {JNull, JBool(false), JNumber(0), JString("")}
  {
  }

  /** Without data, a request schema is never consulted. */
  lemma RequestSchemaNeedsData(config: ClientConfig, path: string, options: RequestOptions,
                               other: Option<Json -> SafeParse>,
                               fetch: FetchRequest -> Response, parseJson: string -> Option<Json>)
    requires options.data.None?
    ensures Request(config, path, options, fetch, parseJson)
         == Request(config, path, options.(requestSchema := other), fetch, parseJson)
  {
  }

  /** A request schema only checks the data: what is sent is the data as given, not the schema's output. */
  lemma RawDataSent(config: ClientConfig, path: string, options: RequestOptions,
                    fetch: FetchRequest -> Response, parseJson: string -> Option<Json>)
    requires options.verb == Put && options.data.Some?
    requires options.requestSchema.Some? && options.requestSchema.value(options.data.value).ParseOk?
    ensures Request(config, path, options, fetch, parseJson).sent.value.body == options.data
  {
  }

  /** PUT and PATCH without data throw before anything is sent. */
  lemma MissingDataNotSent(config: ClientConfig, path: string, options: RequestOptions,
                           fetch: FetchRequest -> Response, parseJson: string -> Option<Json>)
    requires options.verb in {Put, Patch} && options.data.None?
    ensures var o := Request(config, path, options, fetch, parseJson);
      o.sent.None? && o.result.Failure? && o.result.error.MissingData?
      && o.result.error.reason == (if options.verb == Put then "PUT requests require data" else "PATCH requests require data")
  {
  }

  /**
   * With a response schema, a sent request succeeds exactly when the response
   * was handled and the schema accepts its body, and then returns the schema's
   * output; a rejected body throws the schema's issues.
   */
  lemma ResponseSchemaApplied(config: ClientConfig, path: string, options: RequestOptions,
                              fetch: FetchRequest -> Response, parseJson: string -> Option<Json>)
    requires options.responseSchema.Some?
    requires Request(config, path, options, fetch, parseJson).sent.Some?
    ensures var o := Request(config, path, options, fetch, parseJson);
      var handled := HandleResponse(fetch(o.sent.value), parseJson);
      && (o.result.Success? <==>
            handled.Success? && options.responseSchema.value(BodyValue(handled.value)).ParseOk?)
      && (o.result.Success? ==> options.responseSchema.value(BodyValue(handled.value)) == ParseOk(o.result.value.json))
      && (handled.Success? && options.responseSchema.value(BodyValue(handled.value)).ParseErr? ==>
            o.result == Failure(ZodError(options.responseSchema.value(BodyValue(handled.value)).issues)))
  {
  }

  /**
   * A rejected status surfaces as an `HttpClientError` carrying that status and
   * the text of the parsed message, or as the TypeError its constructor throws.
   */
  lemma ErrorStatusSurfaces(config: ClientConfig, path: string, options: RequestOptions,
                            fetch: FetchRequest -> Response, parseJson: string -> Option<Json>)
    requires Request(config, path, options, fetch, parseJson).sent.Some?
    ensures var o := Request(config, path, options, fetch, parseJson);
      var e := ParseError(fetch(o.sent.value), parseJson);
      !Ok(fetch(o.sent.value).status) ==>
        o.result == (if MessageText(e.message).Some?
                     then Failure(HttpClientError(fetch(o.sent.value).status, MessageText(e.message).value, e.errors))
                     else Failure(MessageTypeError))
  {
  }

  /** A number becomes its decimal numeral, and `parseInt` reads that numeral back. */
  lemma NumberMessageReadsBack(n: int)
    ensures MessageText(JNumber(n)).Some?
    ensures Tokens.ParseInt(MessageText(JNumber(n)).value) == Tokens.Num(n)
  {
    var t := MessageText(JNumber(n)).value;
    var ds := Tokens.Numeral(if n < 0 then -n else n);
    TokenProperties.NumeralValue(if n < 0 then -n else n);
    assert t == (if n < 0 then "-" + ds else ds);
    if n < 0 {
      assert t[1..] == ds;
      assert ds[..Tokens.DigitRun(ds)] == ds;
    } else {
      TokenProperties.ParseIntOfDigits(ds);
    }
  }

  /** A one-element array prints as its element, or as "" when that is null. */
  lemma SingletonArrayText(x: Json)
    ensures MessageText(JArray([x])) == (if x.JNull? then Some("") else MessageText(x))
  {
  }

  /** Splitting the text of an array of comma-free strings at ',' returns the strings. */
  lemma {:induction false} StringArrayText(parts: seq<string>)
    requires |parts| > 0
    requires forall i :: 0 <= i < |parts| ==> CommaFree(parts[i])
    ensures var t := MessageText(JArray(seq(|parts|, i requires 0 <= i < |parts| => JString(parts[i]))));
      t.Some? && SplitAtComma(t.value) == parts
  {
    StringArrayPrefix(parts, |parts|);
  }

  predicate CommaFree(s: string) {
    forall i :: 0 <= i < |s| ==> s[i] != ','
  }

  /** `s.split(',')`. */
  function SplitAtComma(s: string): (parts: seq<string>)
    ensures |parts| >= 1
  {
    if |s| == 0 then [""]
    else if s[|s| - 1] == ',' then SplitAtComma(s[..|s| - 1]) + [""]
    else
      var init := SplitAtComma(s[..|s| - 1]);
      init[..|init| - 1] + [init[|init| - 1] + [s[|s| - 1]]]
  }

  /** Splitting `a + "," + b` at ',' when `b` has no comma: the parts of `a`, then `b`. */
  lemma {:induction false} SplitAppend(a: string, b: string)
    requires CommaFree(b)
    ensures SplitAtComma(a + "," + b) == SplitAtComma(a) + [b]
    decreases |b|
  {
    if |b| == 0 {
      assert (a + "," + b)[..|a + "," + b| - 1] == a;
    } else {
      var s := a + "," + b;
      assert s[..|s| - 1] == a + "," + b[..|b| - 1];
      SplitAppend(a, b[..|b| - 1]);
      assert b[..|b| - 1] + [b[|b| - 1]] == b;
    }
  }

  /** A comma-free string splits into itself. */
  lemma {:induction false} SplitCommaFree(s: string)
    requires CommaFree(s)
    ensures SplitAtComma(s) == [s]
    decreases |s|
  {
    if |s| > 0 {
      SplitCommaFree(s[..|s| - 1]);
      assert s[..|s| - 1] + [s[|s| - 1]] == s;
    }
  }

  lemma {:induction false} StringArrayPrefix(parts: seq<string>, k: nat)
    requires 0 < k <= |parts|
    requires forall i :: 0 <= i < |parts| ==> CommaFree(parts[i])
    ensures var arr := JArray(seq(|parts|, i requires 0 <= i < |parts| => JString(parts[i])));
      var t := JoinedText(arr, k);
      t.Some? && SplitAtComma(t.value) == parts[..k]
  {
    var arr := JArray(seq(|parts|, i requires 0 <= i < |parts| => JString(parts[i])));
    assert ElementText(arr.items[k - 1]) == Some(parts[k - 1]);
    if k == 1 {
      SplitCommaFree(parts[0]);
    } else {
      StringArrayPrefix(parts, k - 1);
      SplitAppend(JoinedText(arr, k - 1).value, parts[k - 1]);
      assert parts[..k - 1] + [parts[k - 1]] == parts[..k];
    }
  }

  /** Messages that are not strings, as the thrown error carries them. */
  lemma NonStringMessages()
    ensures MessageText(JNumber(42)) == Some("42")
    ensures MessageText(JArray([JString("a"), JString("b")])) == Some("a,b")
    ensures MessageText(JObject(map[])) == Some("[object Object]")
    ensures MessageText(JObject(map["toString" := JNumber(1)])).None?
  {
    assert Tokens.Numeral(4) == "4";
    assert Tokens.Numeral(42) == "42";
    var ab := JArray([JString("a"), JString("b")]);
    assert JoinedText(ab, 1) == Some("a");
    assert JoinedText(ab, 2) == Some("a" + "," + "b");
    assert "a" + "," + "b" == "a,b";
    assert MessageText(ab) == JoinedText(ab, 2);
  }

  /** On the login page itself a 401 never redirects, so the login form can show its error. */
  lemma NoRedirectLoopOnLogin(response: Response)
    ensures AfterResponse("/login", response).redirect.None?
  {
    RouteProperties.PublicIff("/login");
    assert Routes.StartsWith("/login", "/login");
  }

  /** Off the public pages, exactly 401 and 403 redirect, both to "/login". */
  lemma RedirectOnlyOnAuthFailure(pathname: string, response: Response)
    requires !Routes.IsPublicRoute(pathname)
    ensures AfterResponse(pathname, response).redirect == (if response.status in {401, 403} then Some("/login") else None)
  {
  }

  /** `includes` finds the substring wherever it sits. */
  lemma {:induction false} ContainsEmbedded(pre: string, sub: string, post: string)
    ensures Contains(pre + sub + post, sub)
    decreases |pre|
  {
    if |pre| == 0 {
      assert pre + sub + post == sub + post;
      assert (sub + post)[..|sub|] == sub;
    } else {
      ContainsEmbedded(pre[1..], sub, post);
      assert (pre + sub + post)[1..] == pre[1..] + sub + post;
    }
  }

  /** A JSON media type with parameters, such as a charset, is still read as JSON. */
  lemma JsonWithParameters(response: Response, parseJson: string -> Option<Json>, params: string)
    requires Ok(response.status)
    requires response.contentType == Some("application/json" + params)
    requires parseJson(response.body).Some?
    ensures HandleResponse(response, parseJson) == Success(JsonBody(parseJson(response.body).value))
  {
    ContainsEmbedded("", "application/json", params);
    assert "" + "application/json" + params == "application/json" + params;
  }
}

=== FILE: onboarding.dfy ===
/**
 * `OnboardingService.onboardUser`: one database transaction that redeems a
 * license key into a new tenant, its first user and that user's local
 * credential. The checks run in a fixed order and the first that fails decides
 * the error; any failure rolls the transaction back.
 */
module Onboarding {
  import opened Wrappers
  import opened Exceptions
  import opened Store
  import Slug

  /** The argument of `onboardUser`; `licenseKey` is `None` when the controller passes `undefined`. */
  datatype OnboardingData = OnboardingData(
    licenseKey: Option<string>,
    companyName: string,
    companyUrl: Option<string>,
    fullName: string,
    email: string,
    password: string)

  datatype OnboardingResult = OnboardingResult(userId: Id, tenantId: Id, email: string)

  /** The ids the database generates (`gen_random_uuid()`) for the three new rows. */
  datatype NewIds = NewIds(tenantId: Id, userId: Id, identityId: Id)

  /** The store once the transaction has committed or rolled back, and what the caller receives. */
  datatype Transaction = Transaction(after: Db, outcome: Result<OnboardingResult, HttpException>)

  const InvalidLicenseKey := HttpException(BadRequest, "Invalid license key")
  const LicenseExpired := HttpException(BadRequest, "License has expired")
  const LicenseUsed := HttpException(Conflict, "License key has already been used")
  const EmailTaken := HttpException(Conflict, "An account with this email already exists")
  /** A unique-constraint violation raised by an INSERT; NestJS answers it with a generic 500. */
  const UniqueViolation := HttpException(InternalServerError, "Internal server error")

  /** `data.companyUrl || null`: an absent or empty URL is stored as NULL. */
  function TenantUrl(companyUrl: Option<string>): (url: Option<string>)
    ensures url.None? <==> companyUrl.None? || companyUrl == Some("")
    ensures url.Some? ==> url == companyUrl
  {
    match companyUrl
    case Some(u) => if u == "" then None else Some(u)
    case None => None
  }

  /** The license can still be redeemed at `now`: not expired and referenced by no tenant. */
  predicate Redeemable(db: Db, l: License, now: int) {
    l.expiresAt >= now && forall t :: t in db.tenants ==> t.licenseId != l.id
  }

  /** Some local identity already uses `email` as its provider id. */
  predicate EmailRegistered(db: Db, email: string) {
    exists x :: x in db.identities && x.provider == LocalProvider && x.providerId == email
  }

  /**
   * `after` is `db` with exactly one new tenant, user and identity appended,
   * linked to each other and to `license`, built from `data`, and accepted by
   * the unique constraints.
   */
  predicate Onboarded(db: Db, after: Db, license: License, data: OnboardingData, hash: string -> string, ids: NewIds) {
    && |after.tenants| == |db.tenants| + 1 && |after.users| == |db.users| + 1
    && |after.identities| == |db.identities| + 1
    && after.licenses == db.licenses
    && after.tenants[..|db.tenants|] == db.tenants
    && after.users[..|db.users|] == db.users
    && after.identities[..|db.identities|] == db.identities
    && var tenant := after.tenants[|db.tenants|];
       var user := after.users[|db.users|];
       var identity := after.identities[|db.identities|];
    && tenant.id == ids.tenantId && user.id == ids.userId && identity.id == ids.identityId
    && tenant.licenseId == license.id && tenant.name == data.companyName
    && tenant.slug == Slug.GenerateSlug(data.companyName) && tenant.url == TenantUrl(data.companyUrl)
    && user.tenantId == tenant.id && user.email == data.email && user.fullName == data.fullName
    && identity.userId == user.id && identity.provider == LocalProvider && identity.providerId == data.email
    && identity.passwordHash == Some(hash(data.password))
    && TenantInsertable(db.tenants, tenant) && UserInsertable(db.users, user)
    && IdentityInsertable(db.identities, identity)
  }

  function OnboardUser(db: Db, data: OnboardingData, now: int, hash: string -> string, ids: NewIds): (tx: Transaction)
    ensures tx.outcome.Failure? ==> tx.after == db
    ensures tx.outcome.Failure? ==>
      tx.outcome.error in {InvalidLicenseKey, LicenseExpired, LicenseUsed, EmailTaken, UniqueViolation}
    ensures tx.outcome.Success? ==>
      && tx.outcome.value == OnboardingResult(ids.userId, ids.tenantId, data.email)
      && exists l :: Resolves(db, data.licenseKey, l) && Redeemable(db, l, now)
                     && Onboarded(db, tx.after, l, data, hash, ids)
    ensures tx.outcome.Success? ==> !EmailRegistered(db, data.email)
  {
    match LicenseLookup(db, data.licenseKey)
    case None => Transaction(db, Failure(InvalidLicenseKey))
    case Some(license) =>
      if license.expiresAt < now then Transaction(db, Failure(LicenseExpired))
      else if TenantByLicense(db, license.id).Some? then Transaction(db, Failure(LicenseUsed))
      else if IdentityByProvider(db, LocalProvider, data.email).Some? then Transaction(db, Failure(EmailTaken))
      else
        var tenant := NewTenant(license, data, ids);
        var user := NewUser(data, ids);
        var identity := NewIdentity(data, hash, ids);
        if !TenantInsertable(db.tenants, tenant) || !UserInsertable(db.users, user)
           || !IdentityInsertable(db.identities, identity) then
          Transaction(db, Failure(UniqueViolation))
        else
          var after := Db(db.licenses, db.tenants + [tenant], db.users + [user], db.identities + [identity]);
          AppendOnboards(db, license, data, hash, ids);
          assert forall t :: t in db.tenants ==> t.licenseId != license.id;
          assert !EmailRegistered(db, data.email);
          Transaction(after, Success(OnboardingResult(user.id, tenant.id, user.email)))
  }

  /** The tenant row `onboardUser` inserts. */
  function NewTenant(license: License, data: OnboardingData, ids: NewIds): Tenant {
    Tenant(ids.tenantId, license.id, data.companyName, Slug.GenerateSlug(data.companyName), TenantUrl(data.companyUrl))
  }

  /** The user row `onboardUser` inserts. */
  function NewUser(data: OnboardingData, ids: NewIds): User {
    User(ids.userId, ids.tenantId, data.email, data.fullName)
  }

  /** The local identity row `onboardUser` inserts, holding the password's hash. */
  function NewIdentity(data: OnboardingData, hash: string -> string, ids: NewIds): Identity {
    Identity(ids.identityId, ids.userId, LocalProvider, data.email, Some(hash(data.password)))
  }

  /** Appending the three new rows, when the constraints accept them, is an onboarding. */
  lemma AppendOnboards(db: Db, license: License, data: OnboardingData, hash: string -> string, ids: NewIds)
    requires TenantInsertable(db.tenants, NewTenant(license, data, ids))
    requires UserInsertable(db.users, NewUser(data, ids))
    requires IdentityInsertable(db.identities, NewIdentity(data, hash, ids))
    ensures Onboarded(db, Db(db.licenses, db.tenants + [NewTenant(license, data, ids)], db.users + [NewUser(data, ids)],
                             db.identities + [NewIdentity(data, hash, ids)]), license, data, hash, ids)
  {
    var after := Db(db.licenses, db.tenants + [NewTenant(license, data, ids)], db.users + [NewUser(data, ids)],
                    db.identities + [NewIdentity(data, hash, ids)]);
    assert after.tenants[..|db.tenants|] == db.tenants;
    assert after.users[..|db.users|] == db.users;
    assert after.identities[..|db.identities|] == db.identities;
  }
}

/** What the onboarding transaction guarantees about the store and its errors. */
module OnboardingProperties {
  import opened Wrappers
  import opened Exceptions
  import opened Store
  import StoreAppend
  import Slug
  import opened Onboarding

  /**
   * The checks run key, expiry, use, email in that order and the first failing
   * one decides the error. A license expiring exactly at `now` is still accepted.
   */
  lemma OnboardingErrors(db: Db, data: OnboardingData, now: int, hash: string -> string, ids: NewIds)
    requires LicenseKeysUnique(db.licenses)
    ensures var out := OnboardUser(db, data, now, hash, ids).outcome;
      && (out == Failure(InvalidLicenseKey) <==>
            forall l :: !Resolves(db, data.licenseKey, l))
      && (out == Failure(LicenseExpired) <==>
            exists l :: Resolves(db, data.licenseKey, l) && l.expiresAt < now)
      && (out == Failure(LicenseUsed) <==>
            exists l :: Resolves(db, data.licenseKey, l) && l.expiresAt >= now
                        && exists t :: t in db.tenants && t.licenseId == l.id)
      && (out == Failure(EmailTaken) <==>
            exists l :: Resolves(db, data.licenseKey, l) && Redeemable(db, l, now)
                        && EmailRegistered(db, data.email))
  {
    var out := OnboardUser(db, data, now, hash, ids).outcome;
    if l :| Resolves(db, data.licenseKey, l) {
      LicenseLookupUnique(db, data.licenseKey, l);
      if !Redeemable(db, l, now) && l.expiresAt >= now {
        var t :| t in db.tenants && t.licenseId == l.id;
        assert TenantByLicense(db, l.id).Some?;
      }
      if Redeemable(db, l, now) && EmailRegistered(db, data.email) {
        var x :| x in db.identities && x.provider == LocalProvider && x.providerId == data.email;
        assert IdentityByProvider(db, LocalProvider, data.email).Some?;
      }
    }
  }

  lemma OnboardedPreservesValid(db: Db, after: Db, l: License, data: OnboardingData, hash: string -> string, ids: NewIds)
    requires Valid(db) && l in db.licenses
    requires Onboarded(db, after, l, data, hash, ids)
    ensures Valid(after)
  {
    var tenant := after.tenants[|db.tenants|];
    var user := after.users[|db.users|];
    var identity := after.identities[|db.identities|];
    SplitLast(after.tenants, |db.tenants|);
    SplitLast(after.users, |db.users|);
    SplitLast(after.identities, |db.identities|);
    assert after == Db(db.licenses, db.tenants + [tenant], db.users + [user], db.identities + [identity]);
    AppendPreservesValid(db, l, tenant, user, identity);
  }

  lemma SplitLast<T>(s: seq<T>, n: nat)
    requires |s| == n + 1
    ensures s == s[..n] + [s[n]]
  {
  }

  lemma AppendPreservesValid(db: Db, l: License, tenant: Tenant, user: User, identity: Identity)
    requires Valid(db) && l in db.licenses
    requires tenant.licenseId == l.id && user.tenantId == tenant.id && identity.userId == user.id
    requires TenantInsertable(db.tenants, tenant) && UserInsertable(db.users, user)
    requires IdentityInsertable(db.identities, identity)
    ensures Valid(Db(db.licenses, db.tenants + [tenant], db.users + [user], db.identities + [identity]))
  {
    var after := Db(db.licenses, db.tenants + [tenant], db.users + [user], db.identities + [identity]);
    StoreAppend.AppendTenant(db.tenants, tenant);
    StoreAppend.AppendUser(db.users, user);
    StoreAppend.AppendIdentity(db.identities, identity);
    ReferencesKept(db, after, tenant, user);
  }

  lemma ReferencesKept(db: Db, after: Db, tenant: Tenant, user: User)
    requires TenantsReferenceLicenses(db) && UsersReferenceTenants(db) && IdentitiesReferenceUsers(db)
    requires after.licenses == db.licenses
    requires forall t :: t in after.tenants ==> t in db.tenants || t == tenant
    requires forall u :: u in after.users ==> u in db.users || u == user
    requires forall x :: x in after.identities ==> x in db.identities || x.userId == user.id
    requires forall t :: t in db.tenants ==> t in after.tenants
    requires forall u :: u in db.users ==> u in after.users
    requires tenant in after.tenants && user in after.users
    requires exists l :: l in db.licenses && l.id == tenant.licenseId
    requires user.tenantId == tenant.id
    ensures TenantsReferenceLicenses(after) && UsersReferenceTenants(after) && IdentitiesReferenceUsers(after)
  {
  }

  /** Every failure leaves the store as it was; success keeps every database constraint. */
  lemma OnboardingPreservesValid(db: Db, data: OnboardingData, now: int, hash: string -> string, ids: NewIds)
    requires Valid(db)
    ensures Valid(OnboardUser(db, data, now, hash, ids).after)
  {
    var tx := OnboardUser(db, data, now, hash, ids);
    if tx.outcome.Success? {
      var l :| Resolves(db, data.licenseKey, l) && Redeemable(db, l, now)
               && Onboarded(db, tx.after, l, data, hash, ids);
      OnboardedPreservesValid(db, tx.after, l, data, hash, ids);
    }
  }

  /**
   * With every check passing, fresh row ids and an unused slug, onboarding
   * succeeds: the checks and the unique constraints are the only ways to fail.
   */
  lemma OnboardingSucceeds(db: Db, data: OnboardingData, now: int, hash: string -> string, ids: NewIds, l: License)
    requires Valid(db)
    requires Resolves(db, data.licenseKey, l) && Redeemable(db, l, now)
    requires !EmailRegistered(db, data.email)
    requires forall t :: t in db.tenants ==> t.id != ids.tenantId && t.slug != Slug.GenerateSlug(data.companyName)
    requires forall u :: u in db.users ==> u.id != ids.userId
    requires forall x :: x in db.identities ==> x.id != ids.identityId
    ensures OnboardUser(db, data, now, hash, ids).outcome == Success(OnboardingResult(ids.userId, ids.tenantId, data.email))
  {
    LicenseLookupUnique(db, data.licenseKey, l);
    TenantByLicenseNone(db, l.id);
    IdentityByProviderNone(db, LocalProvider, data.email);
    FreshRowsInsertable(db, data, hash, ids, l);
  }

  /** Fresh ids, an unused license, a free slug and a free email make the three new rows insertable. */
  lemma FreshRowsInsertable(db: Db, data: OnboardingData, hash: string -> string, ids: NewIds, l: License)
    requires Valid(db)
    requires forall t :: t in db.tenants ==> t.licenseId != l.id
    requires !EmailRegistered(db, data.email)
    requires forall t :: t in db.tenants ==> t.id != ids.tenantId && t.slug != Slug.GenerateSlug(data.companyName)
    requires forall u :: u in db.users ==> u.id != ids.userId
    requires forall x :: x in db.identities ==> x.id != ids.identityId
    ensures TenantInsertable(db.tenants, NewTenant(l, data, ids))
    ensures UserInsertable(db.users, NewUser(data, ids))
    ensures IdentityInsertable(db.identities, NewIdentity(data, hash, ids))
  {
    forall i | 0 <= i < |db.tenants|
      ensures db.tenants[i].id != ids.tenantId && db.tenants[i].licenseId != l.id
      ensures db.tenants[i].slug != Slug.GenerateSlug(data.companyName)
    {
      assert db.tenants[i] in db.tenants;
    }
    forall i | 0 <= i < |db.users|
      ensures db.users[i].id != ids.userId && db.users[i].tenantId != ids.tenantId
    {
      assert db.users[i] in db.users;
    }
    forall i | 0 <= i < |db.identities|
      ensures db.identities[i].id != ids.identityId && db.identities[i].userId != ids.userId
      ensures !(db.identities[i].provider == LocalProvider && db.identities[i].providerId == data.email)
    {
      assert db.identities[i] in db.identities;
    }
  }

  /**
   * A license is redeemed at most once: after a successful onboarding, any
   * further onboarding with the same key fails, with a Conflict while the
   * license has not expired.
   */
  lemma LicenseRedeemedOnce(db: Db, data: OnboardingData, now: int, hash: string -> string, ids: NewIds,
                            data2: OnboardingData, now2: int, ids2: NewIds)
    requires LicenseKeysUnique(db.licenses)
    requires OnboardUser(db, data, now, hash, ids).outcome.Success?
    requires data2.licenseKey == data.licenseKey
    ensures var out := OnboardUser(OnboardUser(db, data, now, hash, ids).after, data2, now2, hash, ids2).outcome;
      && out.Failure?
      && (now2 <= now ==> out == Failure(LicenseUsed))
  {
    var after := OnboardUser(db, data, now, hash, ids).after;
    var l :| Resolves(db, data.licenseKey, l) && Redeemable(db, l, now)
             && Onboarded(db, after, l, data, hash, ids);
    var tenant := after.tenants[|db.tenants|];
    assert tenant in after.tenants && tenant.licenseId == l.id;
    OnboardingErrors(after, data2, now2, hash, ids2);
  }

  /**
   * Without a license key the lookup has no condition: onboarding then fails
   * with "Invalid license key" only when no license exists at all, and a
   * success redeems the first license row, whoever it was issued to.
   */
  lemma UndefinedKeyTakesFirstLicense(db: Db, data: OnboardingData, now: int, hash: string -> string, ids: NewIds)
    requires data.licenseKey.None?
    ensures var tx := OnboardUser(db, data, now, hash, ids);
      && (tx.outcome == Failure(InvalidLicenseKey) <==> |db.licenses| == 0)
      && (tx.outcome.Success? ==>
            |db.licenses| > 0 && |tx.after.tenants| == |db.tenants| + 1
            && tx.after.tenants[|db.tenants|].licenseId == db.licenses[0].id)
  {
    var tx := OnboardUser(db, data, now, hash, ids);
    if |db.licenses| > 0 {
      assert Resolves(db, data.licenseKey, db.licenses[0]);
    }
    if tx.outcome.Success? {
      var l :| Resolves(db, data.licenseKey, l) && Redeemable(db, l, now) && Onboarded(db, tx.after, l, data, hash, ids);
    }
  }

  /**
   * Slug uniqueness is left to the database: a second company whose name gives
   * the same slug passes every check and then fails with a generic 500, not a Conflict.
   */
  lemma SameSlugTwice(db: Db, data: OnboardingData, now: int, hash: string -> string, ids: NewIds,
                      data2: OnboardingData, now2: int, ids2: NewIds, l2: License)
    requires LicenseKeysUnique(db.licenses)
    requires OnboardUser(db, data, now, hash, ids).outcome.Success?
    requires Slug.GenerateSlug(data2.companyName) == Slug.GenerateSlug(data.companyName)
    requires Resolves(db, data2.licenseKey, l2)
    requires Redeemable(OnboardUser(db, data, now, hash, ids).after, l2, now2)
    requires !EmailRegistered(OnboardUser(db, data, now, hash, ids).after, data2.email)
    ensures OnboardUser(OnboardUser(db, data, now, hash, ids).after, data2, now2, hash, ids2).outcome
            == Failure(UniqueViolation)
  {
    var after := OnboardUser(db, data, now, hash, ids).after;
    var l :| Resolves(db, data.licenseKey, l) && Redeemable(db, l, now)
             && Onboarded(db, after, l, data, hash, ids);
    var i := |db.tenants|;
    assert after.tenants[i].slug == Slug.GenerateSlug(data2.companyName);
    SlugClashFails(after, data2, now2, hash, ids2, l2, i);
  }

  /**
   * When every check passes but a stored tenant already has the slug, the
   * insert fails with the generic 500.
   */
  lemma SlugClashFails(db: Db, data: OnboardingData, now: int, hash: string -> string, ids: NewIds,
                       l: License, i: nat)
    requires LicenseKeysUnique(db.licenses)
    requires Resolves(db, data.licenseKey, l) && Redeemable(db, l, now)
    requires !EmailRegistered(db, data.email)
    requires i < |db.tenants| && db.tenants[i].slug == Slug.GenerateSlug(data.companyName)
    ensures OnboardUser(db, data, now, hash, ids).outcome == Failure(UniqueViolation)
  {
    LicenseLookupUnique(db, data.licenseKey, l);
    TenantByLicenseNone(db, l.id);
    IdentityByProviderNone(db, LocalProvider, data.email);
    SlugTaken(db.tenants, i, NewTenant(l, data, ids));
  }

  /** A tenant row whose slug is already stored violates the slug constraint. */
  lemma SlugTaken(ts: seq<Tenant>, i: nat, t: Tenant)
    requires i < |ts| && ts[i].slug == t.slug
    ensures !TenantInsertable(ts, t)
  {
  }
}

=== FILE: routes.dfy ===
/**
 * The two `isPublicRoute` helpers of the web app. Both test raw string
 * prefixes, so "/loginx" counts as the login page.
 */
module Routes {

  predicate StartsWith(s: string, prefix: string) {
    |prefix| <= |s| && s[..|prefix|] == prefix
  }

  /** `PUBLIC_PAGES` of `lib/utils/is-public-route.ts`. */
  const PublicPages: seq<string> := ["/login", "/onboarding"]

  /** `PUBLIC_PAGES` of `lib/utils/index.ts`, which also lists the register page. */
  const PublicPagesWithRegister: seq<string> := ["/login", "/register", "/onboarding"]

  /** `pages.some((page) => path.startsWith(page))`. */
  predicate SomePrefix(pages: seq<string>, path: string) {
    exists i :: 0 <= i < |pages| && StartsWith(path, pages[i])
  }

  /** `isPublicRoute` of `lib/utils/is-public-route.ts`. */
  predicate IsPublicRoute(path: string)
  {
    SomePrefix(PublicPages, path)
  }

  /** `isPublicRoute` of `lib/utils/index.ts`. */
  predicate IsPublicRouteWithRegister(path: string)
  {
    SomePrefix(PublicPagesWithRegister, path)
  }
}

module RouteProperties {
  import opened Routes

  /** The public paths are exactly those starting with "/login" or "/onboarding". */
  lemma PublicIff(path: string)
    ensures IsPublicRoute(path) <==> StartsWith(path, "/login") || StartsWith(path, "/onboarding")
  {
    if StartsWith(path, "/login") {
      assert StartsWith(path, PublicPages[0]);
    }
    if StartsWith(path, "/onboarding") {
      assert StartsWith(path, PublicPages[1]);
    }
  }

  /** The other helper adds "/register" to the two prefixes. */
  lemma PublicWithRegisterIff(path: string)
    ensures IsPublicRouteWithRegister(path) <==>
      StartsWith(path, "/login") || StartsWith(path, "/register") || StartsWith(path, "/onboarding")
  {
    if StartsWith(path, "/login") {
      assert StartsWith(path, PublicPagesWithRegister[0]);
    }
    if StartsWith(path, "/register") {
      assert StartsWith(path, PublicPagesWithRegister[1]);
    }
    if StartsWith(path, "/onboarding") {
      assert StartsWith(path, PublicPagesWithRegister[2]);
    }
  }

  /** Every path public for the first helper is public for the second. */
  lemma PublicRoutesNest(path: string)
    requires IsPublicRoute(path)
    ensures IsPublicRouteWithRegister(path)
  {
    PublicIff(path);
    PublicWithRegisterIff(path);
  }

  /** Prefix matching ignores segment boundaries: anything after "/login" stays public. */
  lemma PrefixNotSegment(path: string, rest: string)
    requires IsPublicRoute(path)
    ensures IsPublicRoute(path + rest)
  {
    PublicIff(path);
    PublicIff(path + rest);
    assert (path + rest)[..|path|] == path;
    if StartsWith(path, "/login") {
      assert (path + rest)[..|"/login"|] == path[..|"/login"|];
    } else {
      assert (path + rest)[..|"/onboarding"|] == path[..|"/onboarding"|];
    }
  }

  lemma LoginxIsPublic()
    ensures IsPublicRoute("/loginx")
  {
    assert StartsWith("/loginx", PublicPages[0]);
  }

  /** The root, the empty path and the register page are not public here. */
  lemma NotPublic()
    ensures !IsPublicRoute("/")
    ensures !IsPublicRoute("")
    ensures !IsPublicRoute("/register")
  {
    PublicIff("/");
    PublicIff("");
    PublicIff("/register");
    assert "/register"[1] != "/login"[1];
    assert "/register"[1] != "/onboarding"[1];
  }

  /** In the variant with "/register", "/registered" is public and "/" is not. */
  lemma RegisterVariantExamples()
    ensures IsPublicRouteWithRegister("/registered")
    ensures !IsPublicRouteWithRegister("/")
  {
    assert StartsWith("/registered", PublicPagesWithRegister[1]);
    PublicWithRegisterIff("/");
  }
}

=== FILE: session.dfy ===
/** What a freshly onboarded account can do next: read its profile and log in. */
module Session {
  import opened Wrappers
  import opened Store
  import opened Onboarding
  import OnboardingProperties
  import opened Auth
  import AuthProperties

  /** The rows a successful onboarding appended, and the license it redeemed. */
  lemma NewRows(db: Db, data: OnboardingData, now: int, hash: string -> string, ids: NewIds)
      returns (l: License, tenant: Tenant, user: User, identity: Identity)
    requires Valid(db)
    requires OnboardUser(db, data, now, hash, ids).outcome.Success?
    ensures var after := OnboardUser(db, data, now, hash, ids).after;
      && Valid(after)
      && tenant in after.tenants && user in after.users && identity in after.identities
      && tenant == after.tenants[|db.tenants|] && user == after.users[|db.users|]
      && identity == after.identities[|db.identities|]
      && Onboarded(db, after, l, data, hash, ids)
  {
    var after := OnboardUser(db, data, now, hash, ids).after;
    l :| Resolves(db, data.licenseKey, l) && Redeemable(db, l, now)
         && Onboarded(db, after, l, data, hash, ids);
    OnboardingProperties.OnboardedPreservesValid(db, after, l, data, hash, ids);
    tenant := after.tenants[|db.tenants|];
    user := after.users[|db.users|];
    identity := after.identities[|db.identities|];
  }

  /** Right after onboarding, the new user's profile names the new company. */
  lemma ProfileAfterOnboarding(db: Db, data: OnboardingData, now: int, hash: string -> string, ids: NewIds)
    requires Valid(db)
    requires OnboardUser(db, data, now, hash, ids).outcome.Success?
    ensures GetUserById(OnboardUser(db, data, now, hash, ids).after, ids.userId)
         == Success(UserDto(ids.userId, data.email, data.fullName, TenantDto(data.companyName)))
  {
    var after := OnboardUser(db, data, now, hash, ids).after;
    var l, tenant, user, identity := NewRows(db, data, now, hash, ids);
    AuthProperties.ProfileOfStoredUser(after, user, tenant);
  }

  /**
   * Right after onboarding, the email and password just registered log in,
   * and the token is issued for the new user in the new tenant.
   */
  lemma LoginAfterOnboarding(db: Db, data: OnboardingData, now: int, hash: string -> string, ids: NewIds,
                             verify: (string, string) -> bool, issue: Claims -> string, response: seq<string>)
    requires Valid(db)
    requires OnboardUser(db, data, now, hash, ids).outcome.Success?
    requires hash(data.password) != "" && verify(data.password, hash(data.password))
    ensures Login(OnboardUser(db, data, now, hash, ids).after, data.email, data.password, verify, issue, response)
         == LoginReply(response + [issue(Claims(ids.userId, data.email, ids.tenantId))], Success(()))
  {
    var after := OnboardUser(db, data, now, hash, ids).after;
    var l, tenant, user, identity := NewRows(db, data, now, hash, ids);
    IdentityByProviderUnique(after, LocalProvider, data.email, identity);
    UserByIdUnique(after, user);
  }
}

=== FILE: slug.dfy ===
/**
 * `OnboardingService.generateSlug`: lower-case the company name, replace every
 * run of characters outside [a-z0-9] by one hyphen, then strip leading and
 * trailing hyphens. Lower-casing is modelled on ASCII letters only.
 */
module Slug {

  /** The characters the regular expression class `[a-z0-9]` accepts. */
  predicate IsAlnum(c: char) {
    'a' <= c <= 'z' || '0' <= c <= '9'
  }

  /** Only [a-z0-9-], and no two hyphens in a row; read one character at a time. */
  predicate Hyphenated(s: string)
    decreases |s|
  {
    || |s| == 0
    || (&& (IsAlnum(s[0]) || s[0] == '-')
        && (|s| > 1 ==> !(s[0] == '-' && s[1] == '-'))
        && Hyphenated(s[1..]))
  }

  /** A well-formed slug: only [a-z0-9-], no hyphen at either end, no two hyphens in a row. */
  predicate IsSlug(s: string) {
    Hyphenated(s) && (|s| > 0 ==> s[0] != '-' && s[|s| - 1] != '-')
  }

  /** `Hyphenated` says, position by position, what its summary says. */
  lemma {:induction false} HyphenatedMeans(s: string)
    ensures Hyphenated(s) <==>
              && (forall i :: 0 <= i < |s| ==> IsAlnum(s[i]) || s[i] == '-')
              && (forall i :: 0 <= i < |s| - 1 ==> !(s[i] == '-' && s[i + 1] == '-'))
    decreases |s|
  {
    if |s| > 0 {
      HyphenatedMeans(s[1..]);
      assert forall i :: 1 <= i < |s| ==> s[i] == s[1..][i - 1];
    }
  }

  lemma {:induction false} HyphenatedSuffix(s: string, a: nat)
    requires Hyphenated(s) && a <= |s|
    ensures Hyphenated(s[a..])
    decreases a
  {
    if a > 0 {
      HyphenatedSuffix(s[1..], a - 1);
      assert s[1..][a - 1..] == s[a..];
    }
  }

  lemma {:induction false} HyphenatedPrefix(s: string, b: nat)
    requires Hyphenated(s) && b <= |s|
    ensures Hyphenated(s[..b])
    decreases b
  {
    if b > 0 {
      var t := s[..b];
      HyphenatedPrefix(s[1..], b - 1);
      assert t[1..] == s[1..][..b - 1];
      assert |t| > 1 ==> t[1] == s[1];
    }
  }

  /** Letters and digits alone are hyphenated. */
  lemma {:induction false} AlnumsHyphenated(w: string)
    requires forall i :: 0 <= i < |w| ==> IsAlnum(w[i])
    ensures Hyphenated(w)
    decreases |w|
  {
    if |w| > 0 {
      AlnumsHyphenated(w[1..]);
    }
  }

  /** The letters and digits of `s`, in order. */
  function Alnums(s: string): string {
    if |s| == 0 then []
    else if IsAlnum(s[0]) then [s[0]] + Alnums(s[1..])
    else Alnums(s[1..])
  }

  function Lower(c: char): char {
    if 'A' <= c <= 'Z' then (c as int + 32) as char else c
  }

  function LowerAll(s: string): (r: string)
    ensures |r| == |s|
    ensures forall i :: 0 <= i < |s| ==> r[i] == Lower(s[i])
  {
    seq(|s|, i requires 0 <= i < |s| => Lower(s[i]))
  }

  /** Drops the leading run of characters outside [a-z0-9]. */
  function SkipSeparators(s: string): (r: string)
    ensures |r| <= |s| && r == s[|s| - |r|..]
    ensures |r| > 0 ==> IsAlnum(r[0])
    ensures forall i :: 0 <= i < |s| - |r| ==> !IsAlnum(s[i])
  {
    if |s| == 0 || IsAlnum(s[0]) then s
    else
      var r := SkipSeparators(s[1..]);
      assert s[1..][|s| - 1 - |r|..] == s[|s| - |r|..];
      assert forall i :: 1 <= i < |s| - |r| ==> s[i] == s[1..][i - 1];
      r
  }

  /** `replace(/[^a-z0-9]+/g, '-')`. */
  function Collapse(s: string): (r: string)
    ensures Hyphenated(r)
    ensures |s| == 0 <==> |r| == 0
    ensures |s| > 0 ==> (IsAlnum(s[0]) ==> r[0] == s[0]) && (!IsAlnum(s[0]) ==> r[0] == '-')
    decreases |s|
  {
    if |s| == 0 then []
    else if IsAlnum(s[0]) then
      var rest := Collapse(s[1..]);
      var r := [s[0]] + rest;
      assert r[1..] == rest;
      r
    else
      var t := SkipSeparators(s[1..]);
      var rest := Collapse(t);
      var r := "-" + rest;
      assert r[1..] == rest;
      r
  }

  lemma {:induction false} AlnumsSkip(s: string)
    ensures Alnums(SkipSeparators(s)) == Alnums(s)
    decreases |s|
  {
    if |s| > 0 && !IsAlnum(s[0]) {
      AlnumsSkip(s[1..]);
    }
  }

  /** Collapsing keeps every letter and digit, in order, and adds none. */
  lemma {:induction false} CollapseKeepsAlnums(s: string)
    ensures Alnums(Collapse(s)) == Alnums(s)
    decreases |s|
  {
    if |s| > 0 {
      var r := Collapse(s);
      if IsAlnum(s[0]) {
        CollapseKeepsAlnums(s[1..]);
        assert r == [s[0]] + Collapse(s[1..]);
        assert r[1..] == Collapse(s[1..]);
      } else {
        var t := SkipSeparators(s[1..]);
        CollapseKeepsAlnums(t);
        AlnumsSkip(s[1..]);
        assert r == "-" + Collapse(t);
        assert r[1..] == Collapse(t);
      }
    }
  }

  /** `replace(/^-+/, '')`. */
  function TrimLeading(s: string): (r: string)
    ensures |r| <= |s| && r == s[|s| - |r|..]
    ensures forall i :: 0 <= i < |s| - |r| ==> s[i] == '-'
    ensures |r| > 0 ==> r[0] != '-'
  {
    if |s| > 0 && s[0] == '-' then
      var r := TrimLeading(s[1..]);
      assert s[1..][|s| - 1 - |r|..] == s[|s| - |r|..];
      assert forall i :: 1 <= i < |s| - |r| ==> s[i] == s[1..][i - 1];
      r
    else s
  }

  /** `replace(/-+$/, '')`. */
  function TrimTrailing(s: string): (r: string)
    ensures |r| <= |s| && r == s[..|r|]
    ensures forall i :: |r| <= i < |s| ==> s[i] == '-'
    ensures |r| > 0 ==> r[|r| - 1] != '-'
  {
    if |s| > 0 && s[|s| - 1] == '-' then
      var r := TrimTrailing(s[..|s| - 1]);
      assert s[..|s| - 1][..|r|] == s[..|r|];
      assert forall i :: |r| <= i < |s| - 1 ==> s[i] == s[..|s| - 1][i];
      r
    else s
  }

  /** Stripping the hyphens at both ends of a hyphenated string leaves a slug. */
  lemma TrimmedIsSlug(c: string)
    requires Hyphenated(c)
    ensures IsSlug(TrimTrailing(TrimLeading(c)))
  {
    var t := TrimLeading(c);
    assert Hyphenated(t) by {
      HyphenatedSuffix(c, |c| - |t|);
    }
    var slug := TrimTrailing(t);
    assert Hyphenated(slug) by {
      HyphenatedPrefix(t, |slug|);
    }
    assert |slug| > 0 ==> slug[0] == t[0] && slug[0] != '-';
    assert |slug| > 0 ==> slug[|slug| - 1] != '-';
  }

  /** The slug stored for a tenant named `companyName`. */
  function GenerateSlug(companyName: string): (slug: string)
    ensures IsSlug(slug)
  {
    var c := Collapse(LowerAll(companyName));
    TrimmedIsSlug(c);
    TrimTrailing(TrimLeading(c))
  }

  lemma {:induction false} AlnumsAppend(a: string, b: string)
    ensures Alnums(a + b) == Alnums(a) + Alnums(b)
    decreases |a|
  {
    if |a| == 0 {
      assert a + b == b;
    } else {
      assert (a + b)[0] == a[0];
      assert (a + b)[1..] == a[1..] + b;
      AlnumsAppend(a[1..], b);
      if IsAlnum(a[0]) {
        calc {
          Alnums(a + b);
          [a[0]] + Alnums(a[1..] + b);
          [a[0]] + (Alnums(a[1..]) + Alnums(b));
          ([a[0]] + Alnums(a[1..])) + Alnums(b);
        }
      }
    }
  }

  lemma {:induction false} AlnumsOfHyphens(s: string)
    requires forall i :: 0 <= i < |s| ==> s[i] == '-'
    ensures Alnums(s) == []
    decreases |s|
  {
    if |s| > 0 {
      AlnumsOfHyphens(s[1..]);
    }
  }

  lemma TrimLeadingKeepsAlnums(c: string)
    ensures Alnums(TrimLeading(c)) == Alnums(c)
  {
    var t := TrimLeading(c);
    var dropped := c[..|c| - |t|];
    assert c == dropped + t;
    AlnumsAppend(dropped, t);
    AlnumsOfHyphens(dropped);
  }

  lemma TrimTrailingKeepsAlnums(t: string)
    ensures Alnums(TrimTrailing(t)) == Alnums(t)
  {
    var slug := TrimTrailing(t);
    var dropped := t[|slug|..];
    assert t == slug + dropped;
    AlnumsAppend(slug, dropped);
    AlnumsOfHyphens(dropped);
  }

  /** The slug keeps exactly the (lower-cased) letters and digits of the name, in order. */
  lemma SlugKeepsAlnums(companyName: string)
    ensures Alnums(GenerateSlug(companyName)) == Alnums(LowerAll(companyName))
  {
    var c := Collapse(LowerAll(companyName));
    CollapseKeepsAlnums(LowerAll(companyName));
    TrimLeadingKeepsAlnums(c);
    TrimTrailingKeepsAlnums(TrimLeading(c));
  }

  /** The slug is empty exactly when the name has no ASCII letter or digit. */
  lemma SlugEmptyIff(companyName: string)
    ensures GenerateSlug(companyName) == [] <==> Alnums(LowerAll(companyName)) == []
  {
    var slug := GenerateSlug(companyName);
    SlugKeepsAlnums(companyName);
    if slug != [] {
      assert IsAlnum(slug[0]);
      assert Alnums(slug) == [slug[0]] + Alnums(slug[1..]);
    }
  }

  lemma {:induction false} CollapseOfSlugShape(s: string)
    requires Hyphenated(s)
    ensures Collapse(s) == s
    decreases |s|
  {
    if |s| > 0 {
      CollapseOfSlugShape(s[1..]);
      if !IsAlnum(s[0]) {
        assert |s| > 1 ==> IsAlnum(s[1]);
        assert SkipSeparators(s[1..]) == s[1..];
      }
    }
  }

  /** A slug is its own slug, so generating a slug twice changes nothing. */
  lemma SlugOfSlug(s: string)
    requires IsSlug(s)
    ensures GenerateSlug(s) == s
  {
    HyphenatedMeans(s);
    assert LowerAll(s) == s;
    CollapseOfSlugShape(s);
  }

  lemma GenerateSlugIdempotent(companyName: string)
    ensures GenerateSlug(GenerateSlug(companyName)) == GenerateSlug(companyName)
  {
    SlugOfSlug(GenerateSlug(companyName));
  }

  lemma LowerAcmeCorp()
    ensures LowerAll("Acme Corp") == "acme corp"
  {
    var lowered := LowerAll("Acme Corp");
    assert lowered[0] == 'a' && lowered[5] == 'c';
    assert forall i :: 0 <= i < 9 ==> lowered[i] == "acme corp"[i];
  }

  /** A letter or digit in front is kept as it is. */
  lemma CollapseAlnumHead(c: char, rest: string)
    requires IsAlnum(c)
    ensures Collapse([c] + rest) == [c] + Collapse(rest)
  {
    assert ([c] + rest)[1..] == rest;
  }

  /** A separator in front becomes one hyphen, and the separators after it are swallowed. */
  lemma CollapseSeparatorHead(c: char, rest: string)
    requires !IsAlnum(c)
    ensures Collapse([c] + rest) == "-" + Collapse(SkipSeparators(rest))
  {
    assert ([c] + rest)[1..] == rest;
  }

  lemma SkipAtAlnum(s: string)
    requires |s| > 0 && IsAlnum(s[0])
    ensures SkipSeparators(s) == s
  {
  }

  /** A run of letters and digits in front is kept as it is. */
  lemma {:induction false} CollapseAlnumRun(w: string, tail: string)
    requires forall i :: 0 <= i < |w| ==> IsAlnum(w[i])
    ensures Collapse(w + tail) == w + Collapse(tail)
    decreases |w|
  {
    if |w| > 0 {
      var x := w[1..] + tail;
      var ct := Collapse(tail);
      calc {
        Collapse(w + tail);
        { assert w + tail == [w[0]] + x; }
        Collapse([w[0]] + x);
        { CollapseAlnumHead(w[0], x); }
        [w[0]] + Collapse(x);
        { CollapseAlnumRun(w[1..], tail); }
        [w[0]] + (w[1..] + ct);
        { HeadThenRest(w, ct); }
        w + ct;
      }
    } else {
      assert w + tail == tail;
    }
  }

  lemma HeadThenRest(w: string, t: string)
    requires |w| > 0
    ensures [w[0]] + (w[1..] + t) == w + t
  {
    assert [w[0]] + w[1..] == w;
  }

  /** Lower-casing first changes nothing: the slug ignores letter case. */
  lemma SlugIgnoresCase(companyName: string)
    ensures GenerateSlug(LowerAll(companyName)) == GenerateSlug(companyName)
  {
    LowerAllIdempotent(companyName);
  }

  lemma LowerAllIdempotent(s: string)
    ensures LowerAll(LowerAll(s)) == LowerAll(s)
  {
  }

  /** Two words of letters and digits separated by a space collapse to the words joined by a hyphen. */
  lemma CollapseTwoWords(w1: string, w2: string)
    requires |w2| > 0
    requires forall i :: 0 <= i < |w1| ==> IsAlnum(w1[i])
    requires forall i :: 0 <= i < |w2| ==> IsAlnum(w2[i])
    ensures Collapse(w1 + " " + w2) == w1 + "-" + w2
  {
    Regroup(w1, w2);
    CollapseAlnumRun(w1, [' '] + w2);
    CollapseSpaceWord(w2);
  }

  lemma Regroup(w1: string, w2: string)
    ensures w1 + " " + w2 == w1 + ([' '] + w2)
    ensures w1 + "-" + w2 == w1 + ("-" + w2)
  {
  }

  /** A space before a word of letters and digits becomes a hyphen. */
  lemma CollapseSpaceWord(w: string)
    requires |w| > 0
    requires forall i :: 0 <= i < |w| ==> IsAlnum(w[i])
    ensures Collapse([' '] + w) == "-" + w
  {
    CollapseSeparatorHead(' ', w);
    SkipAtAlnum(w);
    AlnumsHyphenated(w);
    CollapseOfSlugShape(w);
  }

  lemma LowerTwoWords(w1: string, w2: string)
    requires forall i :: 0 <= i < |w1| ==> IsAlnum(w1[i])
    requires forall i :: 0 <= i < |w2| ==> IsAlnum(w2[i])
    ensures LowerAll(w1 + " " + w2) == w1 + " " + w2
  {
  }

  /** Trimming leaves a string without a hyphen at either end as it is. */
  lemma TrimsKeepUnhyphenatedEnds(r: string)
    requires |r| > 0 && r[0] != '-' && r[|r| - 1] != '-'
    ensures TrimTrailing(TrimLeading(r)) == r
  {
  }

  /** Two words of letters and digits separated by a space are joined by a hyphen. */
  lemma TwoWordSlug(w1: string, w2: string)
    requires |w1| > 0 && |w2| > 0
    requires forall i :: 0 <= i < |w1| ==> IsAlnum(w1[i])
    requires forall i :: 0 <= i < |w2| ==> IsAlnum(w2[i])
    ensures GenerateSlug(w1 + " " + w2) == w1 + "-" + w2
  {
    var r := w1 + "-" + w2;
    calc {
      GenerateSlug(w1 + " " + w2);
      TrimTrailing(TrimLeading(Collapse(LowerAll(w1 + " " + w2))));
      { LowerTwoWords(w1, w2); }
      TrimTrailing(TrimLeading(Collapse(w1 + " " + w2)));
      { CollapseTwoWords(w1, w2); }
      TrimTrailing(TrimLeading(r));
      { assert r[0] == w1[0] && r[|r| - 1] == w2[|w2| - 1];
        TrimsKeepUnhyphenatedEnds(r); }
      r;
    }
  }

  lemma AcmeCorpWords()
    ensures forall i :: 0 <= i < |"acme"| ==> IsAlnum("acme"[i])
    ensures forall i :: 0 <= i < |"corp"| ==> IsAlnum("corp"[i])
  {
  }

  lemma AcmeCorpTwoWords()
    ensures GenerateSlug("acme corp") == "acme-corp"
  {
    AcmeCorpWords();
    AcmeCorpSpelling();
    TwoWordSlug("acme", "corp");
  }

  lemma AcmeCorpSpelling()
    ensures "acme corp" == "acme" + " " + "corp"
    ensures "acme-corp" == "acme" + "-" + "corp"
  {
  }

  /** The worked example: "Acme Corp" becomes "acme-corp". */
  lemma AcmeCorpSlug(name: string)
    requires name == "Acme Corp"
    ensures GenerateSlug(name) == "acme-corp"
  {
    calc {
      GenerateSlug(name);
      { SlugIgnoresCase(name); }
      GenerateSlug(LowerAll(name));
      { LowerAcmeCorp(); }
      GenerateSlug("acme corp");
      { AcmeCorpTwoWords(); }
      "acme-corp";
    }
  }
}

=== FILE: stepper.dfy ===
/**
 * The `Stepper` component's per-step classification. `currentStep` counts
 * from one; step `index` counts from zero.
 */
module Stepper {
  import opened Wrappers

  datatype Icon = CheckIcon | Label(number: nat)

  /** How one step renders: its status, its icon, and the connector line after it, if any. */
  datatype StepView = StepView(completed: bool, active: bool, icon: Icon, connector: Option<bool>)

  function View(index: nat, stepCount: nat, currentStep: int): (v: StepView)
    requires index < stepCount
  {
    var activeStepIndex := currentStep - 1;
    var isCompleted := index < activeStepIndex;
    var isActive := index == activeStepIndex;
    var isLast := index == stepCount - 1;
    StepView(isCompleted, isActive,
             if isCompleted then CheckIcon else Label(index + 1),
             if isLast then None else Some(isCompleted))
  }

  /** `steps.map(...)`. */
  function Views(stepCount: nat, currentStep: int): (vs: seq<StepView>)
    ensures |vs| == stepCount
    ensures forall i :: 0 <= i < stepCount ==> vs[i] == View(i, stepCount, currentStep)
  {
    seq(stepCount, i requires 0 <= i < stepCount => View(i, stepCount, currentStep))
  }

  /** How many views are marked completed. */
  function CompletedCount(vs: seq<StepView>): (n: nat)
    ensures n <= |vs|
  {
    if |vs| == 0 then 0 else (if vs[|vs| - 1].completed then 1 else 0) + CompletedCount(vs[..|vs| - 1])
  }
}

module StepperProperties {
  import opened Wrappers
  import opened Stepper

  /** Completed means strictly before the current step, active means the current step, and never both. */
  lemma StatusOfStep(stepCount: nat, currentStep: int, i: nat)
    requires i < stepCount
    ensures Views(stepCount, currentStep)[i].completed <==> i + 1 < currentStep
    ensures Views(stepCount, currentStep)[i].active <==> i + 1 == currentStep
    ensures !(Views(stepCount, currentStep)[i].completed && Views(stepCount, currentStep)[i].active)
  {
  }

  /** At most one step is active. */
  lemma AtMostOneActive(stepCount: nat, currentStep: int, i: nat, j: nat)
    requires i < stepCount && j < stepCount
    requires Views(stepCount, currentStep)[i].active && Views(stepCount, currentStep)[j].active
    ensures i == j
  {
  }

  /** The completed steps form a prefix, and the active step directly follows it. */
  lemma CompletedPrefix(stepCount: nat, currentStep: int, i: nat, j: nat)
    requires j <= i < stepCount
    requires Views(stepCount, currentStep)[i].completed
    ensures Views(stepCount, currentStep)[j].completed
    ensures i + 1 < stepCount ==> Views(stepCount, currentStep)[i + 1].completed || Views(stepCount, currentStep)[i + 1].active
  {
  }

  /** A completed step shows the check icon; every other step shows its one-based number. */
  lemma IconOfStep(stepCount: nat, currentStep: int, i: nat)
    requires i < stepCount
    ensures var v := Views(stepCount, currentStep)[i];
      v.icon == if v.completed then CheckIcon else Label(i + 1)
  {
  }

  /** Every step but the last is followed by a connector, marked completed with its step. */
  lemma ConnectorOfStep(stepCount: nat, currentStep: int, i: nat)
    requires i < stepCount
    ensures var v := Views(stepCount, currentStep)[i];
      (v.connector.None? <==> i == stepCount - 1) && (v.connector.Some? ==> v.connector.value == v.completed)
  {
  }

  /** The number of completed steps is `currentStep - 1`, clamped to the number of steps. */
  lemma {:induction false} CompletedCountIs(vs: seq<StepView>, stepCount: nat, currentStep: int, k: nat)
    requires k <= stepCount
    requires vs == Views(stepCount, currentStep)[..k]
    ensures CompletedCount(vs) == if currentStep - 1 <= 0 then 0 else if currentStep - 1 >= k then k else currentStep - 1
    decreases k
  {
    if k > 0 {
      var all := Views(stepCount, currentStep);
      assert vs[..k - 1] == all[..k - 1];
      CompletedCountIs(vs[..k - 1], stepCount, currentStep, k - 1);
      assert vs[k - 1] == all[k - 1];
    }
  }

  lemma CompletedSteps(stepCount: nat, currentStep: int)
    ensures CompletedCount(Views(stepCount, currentStep))
         == if currentStep <= 1 then 0 else if currentStep - 1 >= stepCount then stepCount else currentStep - 1
  {
    var vs := Views(stepCount, currentStep);
    assert vs[..stepCount] == vs;
    CompletedCountIs(vs, stepCount, currentStep, stepCount);
  }
}

=== FILE: store.dfy ===
/**
 * The identity store: licenses, tenants, users and user identities, with the
 * unique and foreign-key constraints the migrations declare. Every table is the
 * sequence of its rows; `findOne` returns the first row that matches.
 */
module Store {
  import opened Wrappers

  /** Row ids (uuids generated by the database). */
  type Id = string

  /** A pre-provisioned license; `expiresAt` is a point in time in milliseconds. */
  datatype License = License(id: Id, licenseKey: string, expiresAt: int)

  datatype Tenant = Tenant(id: Id, licenseId: Id, name: string, slug: string, url: Option<string>)

  datatype User = User(id: Id, tenantId: Id, email: string, fullName: string)

  /** A credential; `passwordHash` is `None` for federated identities. */
  datatype Identity = Identity(id: Id, userId: Id, provider: string, providerId: string, passwordHash: Option<string>)

  datatype Db = Db(licenses: seq<License>, tenants: seq<Tenant>, users: seq<User>, identities: seq<Identity>)

  const LocalProvider := "local"

  /** The index of the first element of `s` satisfying `p`, or `|s|` when there is none. */
  function FirstIndex<T>(s: seq<T>, p: T -> bool): (k: nat)
    ensures k <= |s|
    ensures k < |s| ==> p(s[k])
    ensures forall j :: 0 <= j < k ==> !p(s[j])
  {
    if |s| == 0 then 0
    else if p(s[0]) then 0
    else
      var k := FirstIndex(s[1..], p);
      assert forall j :: 1 <= j < |s| ==> s[j] == s[1..][j - 1];
      k + 1
  }

  /** The first element of `s` satisfying `p` (TypeORM's `findOne`). */
  function FindFirst<T(==)>(s: seq<T>, p: T -> bool): (r: Option<T>)
    ensures r.None? <==> forall i :: 0 <= i < |s| ==> !p(s[i])
    ensures r.Some? ==> r.value in s && p(r.value)
    ensures r.Some? ==> forall j :: 0 <= j < |s| && p(s[j]) ==> s[FirstIndex(s, p)] == r.value && FirstIndex(s, p) <= j
  {
    var k := FirstIndex(s, p);
    if k < |s| then Some(s[k]) else None
  }

  // Lookups used by the services.

  function LicenseByKey(db: Db, key: string): Option<License> {
    FindFirst(db.licenses, (l: License) => l.licenseKey == key)
  }

  /**
   * The license row a `findOne({where: {licenseKey}})` designates: the row
   * with that key or, when the key is `undefined`, the first row, because
   * TypeORM drops a condition whose value is `undefined` and the query then
   * has no condition at all.
   */
  predicate Resolves(db: Db, key: Option<string>, l: License) {
    match key
    case Some(k) => l in db.licenses && l.licenseKey == k
    case None => |db.licenses| > 0 && l == db.licenses[0]
  }

  /** `LicenseRepository.findByLicenseKey`, whose argument may be `undefined`. */
  function LicenseLookup(db: Db, key: Option<string>): (r: Option<License>)
    ensures r.Some? ==> Resolves(db, key, r.value)
    ensures r.None? <==> forall l :: !Resolves(db, key, l)
  {
    match key
    case Some(k) =>
      var r := LicenseByKey(db, k);
      if r.None? then
        assert forall l :: l in db.licenses ==> l.licenseKey != k by {
          forall l | l in db.licenses ensures l.licenseKey != k {
            var i :| 0 <= i < |db.licenses| && db.licenses[i] == l;
          }
        }
        r
      else
        assert Resolves(db, key, r.value);
        r
    case None =>
      var r := FindFirst(db.licenses, (l: License) => true);
      assert |db.licenses| > 0 ==> Resolves(db, key, db.licenses[0]);
      r
  }

  function TenantByLicense(db: Db, licenseId: Id): Option<Tenant> {
    FindFirst(db.tenants, (t: Tenant) => t.licenseId == licenseId)
  }

  function TenantById(db: Db, id: Id): Option<Tenant> {
    FindFirst(db.tenants, (t: Tenant) => t.id == id)
  }

  function UserById(db: Db, id: Id): Option<User> {
    FindFirst(db.users, (u: User) => u.id == id)
  }

  function IdentityByProvider(db: Db, provider: string, providerId: string): Option<Identity> {
    FindFirst(db.identities, (x: Identity) => x.provider == provider && x.providerId == providerId)
  }

  // Unique constraints.

  predicate LicenseIdsUnique(ls: seq<License>) {
    forall i, j :: 0 <= i < |ls| && 0 <= j < |ls| && ls[i].id == ls[j].id ==> i == j
  }

  /** licenses.license_key is unique. */
  predicate LicenseKeysUnique(ls: seq<License>) {
    forall i, j :: 0 <= i < |ls| && 0 <= j < |ls| && ls[i].licenseKey == ls[j].licenseKey ==> i == j
  }

  predicate TenantIdsUnique(ts: seq<Tenant>) {
    forall i, j :: 0 <= i < |ts| && 0 <= j < |ts| && ts[i].id == ts[j].id ==> i == j
  }

  /** tenants.license_id is unique: a license is redeemed by at most one tenant. */
  predicate TenantLicensesUnique(ts: seq<Tenant>) {
    forall i, j :: 0 <= i < |ts| && 0 <= j < |ts| && ts[i].licenseId == ts[j].licenseId ==> i == j
  }

  /** tenants.slug is unique. */
  predicate TenantSlugsUnique(ts: seq<Tenant>) {
    forall i, j :: 0 <= i < |ts| && 0 <= j < |ts| && ts[i].slug == ts[j].slug ==> i == j
  }

  predicate UserIdsUnique(us: seq<User>) {
    forall i, j :: 0 <= i < |us| && 0 <= j < |us| && us[i].id == us[j].id ==> i == j
  }

  /** users(tenant_id, email) is unique. */
  predicate UserEmailsUniquePerTenant(us: seq<User>) {
    forall i, j ::
      0 <= i < |us| && 0 <= j < |us| && us[i].tenantId == us[j].tenantId && us[i].email == us[j].email ==> i == j
  }

  predicate IdentityIdsUnique(xs: seq<Identity>) {
    forall i, j :: 0 <= i < |xs| && 0 <= j < |xs| && xs[i].id == xs[j].id ==> i == j
  }

  /** user_identities.user_id is unique: one identity per user. */
  predicate IdentityUsersUnique(xs: seq<Identity>) {
    forall i, j :: 0 <= i < |xs| && 0 <= j < |xs| && xs[i].userId == xs[j].userId ==> i == j
  }

  /** user_identities(provider, provider_id) is unique across all tenants. */
  predicate IdentityProvidersUnique(xs: seq<Identity>) {
    forall i, j ::
      (0 <= i < |xs| && 0 <= j < |xs| && xs[i].provider == xs[j].provider && xs[i].providerId == xs[j].providerId)
      ==> i == j
  }

  // Foreign keys.

  predicate TenantsReferenceLicenses(db: Db) {
    forall t :: t in db.tenants ==> exists l :: l in db.licenses && l.id == t.licenseId
  }

  predicate UsersReferenceTenants(db: Db) {
    forall u :: u in db.users ==> exists t :: t in db.tenants && t.id == u.tenantId
  }

  predicate IdentitiesReferenceUsers(db: Db) {
    forall x :: x in db.identities ==> exists u :: u in db.users && u.id == x.userId
  }

  // What an INSERT checks against the unique constraints before it is accepted.

  predicate TenantInsertable(ts: seq<Tenant>, t: Tenant) {
    forall i :: 0 <= i < |ts| ==> ts[i].id != t.id && ts[i].licenseId != t.licenseId && ts[i].slug != t.slug
  }

  predicate UserInsertable(us: seq<User>, u: User) {
    forall i :: 0 <= i < |us| ==> us[i].id != u.id && !(us[i].tenantId == u.tenantId && us[i].email == u.email)
  }

  predicate IdentityInsertable(xs: seq<Identity>, x: Identity) {
    forall i :: 0 <= i < |xs| ==>
      xs[i].id != x.id && xs[i].userId != x.userId && !(xs[i].provider == x.provider && xs[i].providerId == x.providerId)
  }

  /** Every constraint the database enforces, except the slug constraint. */
  predicate Consistent(db: Db) {
    && LicenseIdsUnique(db.licenses) && LicenseKeysUnique(db.licenses)
    && TenantIdsUnique(db.tenants) && TenantLicensesUnique(db.tenants)
    && UserIdsUnique(db.users) && UserEmailsUniquePerTenant(db.users)
    && IdentityIdsUnique(db.identities) && IdentityUsersUnique(db.identities)
    && IdentityProvidersUnique(db.identities)
    && TenantsReferenceLicenses(db) && UsersReferenceTenants(db) && IdentitiesReferenceUsers(db)
  }

  /** Every constraint the database enforces. */
  predicate Valid(db: Db) {
    Consistent(db) && TenantSlugsUnique(db.tenants)
  }

  /** `findOne` by license finds nothing when no tenant references the license. */
  lemma TenantByLicenseNone(db: Db, licenseId: Id)
    requires forall t :: t in db.tenants ==> t.licenseId != licenseId
    ensures TenantByLicense(db, licenseId).None?
  {
    forall i | 0 <= i < |db.tenants|
      ensures db.tenants[i].licenseId != licenseId
    {
      assert db.tenants[i] in db.tenants;
    }
  }

  /** `findOne` by provider finds nothing when no identity has that provider and provider id. */
  lemma IdentityByProviderNone(db: Db, provider: string, providerId: string)
    requires forall x :: x in db.identities ==> !(x.provider == provider && x.providerId == providerId)
    ensures IdentityByProvider(db, provider, providerId).None?
  {
    forall i | 0 <= i < |db.identities|
      ensures !(db.identities[i].provider == provider && db.identities[i].providerId == providerId)
    {
      assert db.identities[i] in db.identities;
    }
  }

  /** Under the license_key constraint, the row `findOne` returns is the only one with that key. */
  lemma {:induction false} LicenseByKeyUnique(db: Db, key: string, l: License)
    requires LicenseKeysUnique(db.licenses)
    requires l in db.licenses && l.licenseKey == key
    ensures LicenseByKey(db, key) == Some(l)
  {
    var i :| 0 <= i < |db.licenses| && db.licenses[i] == l;
    var r := LicenseByKey(db, key);
    var k :| 0 <= k < |db.licenses| && db.licenses[k] == r.value && db.licenses[k].licenseKey == key;
    assert k == i;
  }

  /** Under the license_key constraint, the lookup returns the one row the key designates. */
  lemma LicenseLookupUnique(db: Db, key: Option<string>, l: License)
    requires LicenseKeysUnique(db.licenses)
    requires Resolves(db, key, l)
    ensures LicenseLookup(db, key) == Some(l)
  {
    match key
    case Some(k) => LicenseByKeyUnique(db, k, l);
    case None =>
  }

  /** Under the (provider, provider_id) constraint, the identity `findOne` returns is the only one. */
  lemma {:induction false} IdentityByProviderUnique(db: Db, provider: string, providerId: string, x: Identity)
    requires IdentityProvidersUnique(db.identities)
    requires x in db.identities && x.provider == provider && x.providerId == providerId
    ensures IdentityByProvider(db, provider, providerId) == Some(x)
  {
    var i :| 0 <= i < |db.identities| && db.identities[i] == x;
    var r := IdentityByProvider(db, provider, providerId);
    var k :| 0 <= k < |db.identities| && db.identities[k] == r.value
             && db.identities[k].provider == provider && db.identities[k].providerId == providerId;
    assert k == i;
  }

  /** Under the primary-key constraint, the user `findOne` returns is the only one with that id. */
  lemma {:induction false} UserByIdUnique(db: Db, u: User)
    requires UserIdsUnique(db.users)
    requires u in db.users
    ensures UserById(db, u.id) == Some(u)
  {
    var i :| 0 <= i < |db.users| && db.users[i] == u;
    var r := UserById(db, u.id);
    var k :| 0 <= k < |db.users| && db.users[k] == r.value && db.users[k].id == u.id;
    assert k == i;
  }

  /** Under the primary-key constraint, the tenant `findOne` returns is the only one with that id. */
  lemma {:induction false} TenantByIdUnique(db: Db, t: Tenant)
    requires TenantIdsUnique(db.tenants)
    requires t in db.tenants
    ensures TenantById(db, t.id) == Some(t)
  {
    var i :| 0 <= i < |db.tenants| && db.tenants[i] == t;
    var r := TenantById(db, t.id);
    var k :| 0 <= k < |db.tenants| && db.tenants[k] == r.value && db.tenants[k].id == t.id;
    assert k == i;
  }
}

/** How appending an accepted row keeps each table's constraints. */
module StoreAppend {
  import opened Store

  lemma AppendTenant(ts: seq<Tenant>, t: Tenant)
    requires TenantIdsUnique(ts) && TenantLicensesUnique(ts) && TenantSlugsUnique(ts)
    requires TenantInsertable(ts, t)
    ensures TenantIdsUnique(ts + [t]) && TenantLicensesUnique(ts + [t]) && TenantSlugsUnique(ts + [t])
  {
    var ts' := ts + [t];
    assert forall i :: 0 <= i < |ts| ==> ts'[i] == ts[i];
  }

  lemma AppendUser(us: seq<User>, u: User)
    requires UserIdsUnique(us) && UserEmailsUniquePerTenant(us)
    requires UserInsertable(us, u)
    ensures UserIdsUnique(us + [u]) && UserEmailsUniquePerTenant(us + [u])
  {
    var us' := us + [u];
    assert forall i :: 0 <= i < |us| ==> us'[i] == us[i];
  }

  lemma AppendIdentity(xs: seq<Identity>, x: Identity)
    requires IdentityIdsUnique(xs) && IdentityUsersUnique(xs) && IdentityProvidersUnique(xs)
    requires IdentityInsertable(xs, x)
    ensures IdentityIdsUnique(xs + [x]) && IdentityUsersUnique(xs + [x]) && IdentityProvidersUnique(xs + [x])
  {
    var xs' := xs + [x];
    assert forall i :: 0 <= i < |xs| ==> xs'[i] == xs[i];
  }
}

/** How `findOne` behaves when rows are added. */
module FindFacts {
  import opened Wrappers
  import opened Store

  /** Rows that do not match the query do not change what `findOne` returns. */
  lemma {:induction false} FindFirstIgnoresNonMatching<T>(s: seq<T>, extra: seq<T>, p: T -> bool)
    requires forall i :: 0 <= i < |extra| ==> !p(extra[i])
    ensures FindFirst(s + extra, p) == FindFirst(s, p)
  {
    var k := FirstIndex(s, p);
    var k' := FirstIndex(s + extra, p);
    assert forall i :: 0 <= i < |s| ==> (s + extra)[i] == s[i];
    assert forall i :: |s| <= i < |s + extra| ==> (s + extra)[i] == extra[i - |s|];
    if k < |s| {
      assert k' == k;
    } else {
      assert k' == |s + extra|;
    }
  }
}

=== FILE: theme.dfy ===
/**
 * The theme provider of the web app as a state machine. Local storage, the
 * `prefers-color-scheme` media query and the `data-theme` attribute are
 * plain fields of the state.
 */
module Theme {
  import opened Wrappers

  datatype Theme = Light | Dark

  function Name(t: Theme): string {
    match t
    case Light => "light"
    case Dark => "dark"
  }

  /** `STORAGE_KEY`'s value as read from local storage (`None` when unset). */
  type Stored = Option<string>

  datatype ThemeState = ThemeState(
    theme: Theme,          // the React state
    stored: Stored,        // localStorage['theme-preference']
    systemDark: bool,      // matchMedia('(prefers-color-scheme: dark)').matches
    reflected: Theme)      // <html data-theme>

  /** `getColorPreference`. */
  function ColorPreference(hasWindow: bool, stored: Stored, systemDark: bool): (t: Theme)
    ensures hasWindow && stored == Some("light") ==> t == Light
    ensures hasWindow && stored == Some("dark") ==> t == Dark
    ensures hasWindow && stored !in {Some("light"), Some("dark")} ==> (t == Dark <==> systemDark)
    ensures !hasWindow ==> t == Light
  {
    if hasWindow then
      if stored == Some("light") then Light
      else if stored == Some("dark") then Dark
      else if systemDark then Dark
      else Light
    else Light
  }

  /** The provider after mounting: the initial preference, reflected by the effect. */
  function Mount(stored: Stored, systemDark: bool): (s: ThemeState)
    ensures s.reflected == s.theme && s.stored == stored && s.systemDark == systemDark
    ensures stored in {Some("light"), Some("dark")} ==> Some(Name(s.theme)) == stored
    ensures stored !in {Some("light"), Some("dark")} ==> (s.theme == Dark <==> systemDark)
  {
    var t := ColorPreference(true, stored, systemDark);
    ThemeState(t, stored, systemDark, t)
  }

  function Flip(t: Theme): Theme {
    if t == Light then Dark else Light
  }

  /** `toggleTheme`: flip, persist, reflect. */
  function Toggle(s: ThemeState): (r: ThemeState)
    ensures r.theme != s.theme && r.stored == Some(Name(r.theme)) && r.reflected == r.theme
    ensures r.systemDark == s.systemDark
  {
    var t := Flip(s.theme);
    s.(theme := t, stored := Some(Name(t)), reflected := t)
  }

  /** `!localStorage.getItem(STORAGE_KEY)`: nothing stored, or the empty string. */
  predicate NoStoredPreference(stored: Stored) {
    stored.None? || stored == Some("")
  }

  /** `handleSystemThemeChange` for a media-query event whose `matches` is `dark`. */
  function SystemChange(s: ThemeState, dark: bool): (r: ThemeState)
    ensures r.systemDark == dark && r.stored == s.stored
    ensures NoStoredPreference(s.stored) ==> r.theme == (if dark then Dark else Light) && r.reflected == r.theme
    ensures !NoStoredPreference(s.stored) ==> r.theme == s.theme && r.reflected == s.reflected
  {
    var s' := s.(systemDark := dark);
    if NoStoredPreference(s.stored) then
      var t := if dark then Dark else Light;
      s'.(theme := t, reflected := t)
    else s'
  }

  datatype Event = ToggleClicked | SystemChanged(dark: bool)

  function Step(s: ThemeState, e: Event): ThemeState {
    match e
    case ToggleClicked => Toggle(s)
    case SystemChanged(dark) => SystemChange(s, dark)
  }

  function Run(s: ThemeState, events: seq<Event>): ThemeState
    decreases |events|
  {
    if |events| == 0 then s else Run(Step(s, events[0]), events[1..])
  }

  /** The toggles among `events`, in order. */
  function Toggles(events: seq<Event>): (r: seq<Event>)
    ensures |r| <= |events|
  {
    if |events| == 0 then []
    else if events[0].ToggleClicked? then [events[0]] + Toggles(events[1..])
    else Toggles(events[1..])
  }
}

module ThemeProperties {
  import opened Wrappers
  import opened Theme

  /** Toggling twice restores the theme. */
  lemma ToggleTwice(s: ThemeState)
    ensures Toggle(Toggle(s)).theme == s.theme
  {
  }

  /** The persisted value is read back: after a toggle, a reload shows the toggled theme, whatever the system prefers. */
  lemma ReloadKeepsToggle(s: ThemeState, systemDark: bool)
    ensures Mount(Toggle(s).stored, systemDark).theme == Toggle(s).theme
  {
  }

  /** An unrecognised stored value counts as no preference at mount. */
  lemma UnknownStoredIgnored(stored: string, systemDark: bool)
    requires stored != "light" && stored != "dark"
    ensures Mount(Some(stored), systemDark).theme == Mount(None, systemDark).theme
  {
  }

  /** The page always shows the theme the provider holds. */
  lemma {:induction false} ReflectedTracksTheme(s: ThemeState, events: seq<Event>)
    requires s.reflected == s.theme
    ensures Run(s, events).reflected == Run(s, events).theme
    decreases |events|
  {
    if |events| > 0 {
      ReflectedTracksTheme(Step(s, events[0]), events[1..]);
    }
  }

  predicate Persisted(s: ThemeState) {
    s.stored in {Some("light"), Some("dark")}
  }

  /**
   * Once a preference is persisted, system changes are ignored: the theme
   * only moves with the toggles.
   */
  lemma {:induction false} SystemIgnoredOncePersisted(s: ThemeState, events: seq<Event>)
    requires Persisted(s)
    ensures Run(s, events).theme == Run(s, Toggles(events)).theme
    ensures Persisted(Run(s, events))
    decreases |events|
  {
    if |events| > 0 {
      var s' := Step(s, events[0]);
      SystemIgnoredOncePersisted(s', events[1..]);
      if events[0].ToggleClicked? {
        assert Toggles(events) == [events[0]] + Toggles(events[1..]);
        assert ([events[0]] + Toggles(events[1..]))[1..] == Toggles(events[1..]);
      } else {
        assert Toggles(events) == Toggles(events[1..]);
        TogglesOnly(events[1..]);
        SameThemeSameRun(s, s', Toggles(events[1..]));
      }
    }
  }

  /** Only the theme matters to where toggles lead. */
  lemma {:induction false} SameThemeSameRun(a: ThemeState, b: ThemeState, toggles: seq<Event>)
    requires a.theme == b.theme
    requires forall i :: 0 <= i < |toggles| ==> toggles[i].ToggleClicked?
    ensures Run(a, toggles).theme == Run(b, toggles).theme
    decreases |toggles|
  {
    if |toggles| > 0 {
      assert toggles[0].ToggleClicked?;
      SameThemeSameRun(Toggle(a), Toggle(b), toggles[1..]);
    }
  }

  lemma {:induction false} TogglesOnly(events: seq<Event>)
    ensures forall i :: 0 <= i < |Toggles(events)| ==> Toggles(events)[i].ToggleClicked?
    decreases |events|
  {
    if |events| > 0 {
      TogglesOnly(events[1..]);
    }
  }

  /** After any toggle, later system changes never move the theme. */
  lemma SystemIgnoredAfterToggle(s: ThemeState, events: seq<Event>)
    ensures Run(Toggle(s), events).theme == Run(Toggle(s), Toggles(events)).theme
  {
    SystemIgnoredOncePersisted(Toggle(s), events);
  }
}

=== FILE: tokens.dfy ===
/**
 * The pure parts of `JwtService`: payload construction, the `expiresIn`
 * parser used for cookie lifetimes, and the cookie instructions. Signing is a
 * parameter.
 */
module Tokens {
  import opened Wrappers

  const AccessType := "access"
  const RefreshType := "refresh"

  /** The claims inside a token; `tokenType` is the payload's `type` field. */
  datatype JwtPayload = JwtPayload(sub: string, email: string, tenantId: string, tokenType: string)

  datatype JwtConfig = JwtConfig(secret: string, accessTokenExpiresIn: string, refreshTokenExpiresIn: string)

  /** What is handed to the signer: the payload and the `expiresIn` option. */
  datatype SignRequest = SignRequest(payload: JwtPayload, expiresIn: string)

  datatype TokenPair = TokenPair(accessToken: string, refreshToken: string)

  /** The expiries the configuration falls back to when the environment sets none. */
  const DefaultAccessExpiresIn := "15m"
  const DefaultRefreshExpiresIn := "7d"

  /** A JavaScript number as `parseInt` and arithmetic on it produce: an integer or NaN. */
  datatype JsNumber = Num(value: int) | NaN

  function Times(x: JsNumber, k: int): JsNumber {
    match x
    case Num(v) => Num(v * k)
    case NaN => NaN
  }

  /** The payload `generateAccessToken` signs, with the access expiry. */
  function AccessSignRequest(config: JwtConfig, userId: string, email: string, tenantId: string): SignRequest
  {
    SignRequest(JwtPayload(userId, email, tenantId, AccessType), config.accessTokenExpiresIn)
  }

  /** The payload `generateRefreshToken` signs, with the refresh expiry. */
  function RefreshSignRequest(config: JwtConfig, userId: string, email: string, tenantId: string): SignRequest
  {
    SignRequest(JwtPayload(userId, email, tenantId, RefreshType), config.refreshTokenExpiresIn)
  }

  function GenerateAccessToken(config: JwtConfig, sign: SignRequest -> string,
                               userId: string, email: string, tenantId: string): string
  {
    sign(AccessSignRequest(config, userId, email, tenantId))
  }

  function GenerateRefreshToken(config: JwtConfig, sign: SignRequest -> string,
                                userId: string, email: string, tenantId: string): string
  {
    sign(RefreshSignRequest(config, userId, email, tenantId))
  }

  /** Both tokens of the pair carry the same claims; only the type and the expiry differ. */
  function GenerateTokenPair(config: JwtConfig, sign: SignRequest -> string,
                             userId: string, email: string, tenantId: string): (pair: TokenPair)
    ensures exists a, b :: pair == TokenPair(sign(a), sign(b))
                           && a.payload.(tokenType := RefreshType) == b.payload
                           && a.payload.sub == userId && a.payload.email == email && a.payload.tenantId == tenantId
                           && a.payload.tokenType == AccessType
                           && a.expiresIn == config.accessTokenExpiresIn && b.expiresIn == config.refreshTokenExpiresIn
  {
    var a := AccessSignRequest(config, userId, email, tenantId);
    var b := RefreshSignRequest(config, userId, email, tenantId);
    TokenPair(sign(a), sign(b))
  }

  // parseInt(s, 10) on an optional sign followed by decimal digits.

  predicate IsDigit(c: char) {
    '0' <= c <= '9'
  }

  predicate AllDigits(s: string) {
    forall i :: 0 <= i < |s| ==> IsDigit(s[i])
  }

  function DigitValue(c: char): (d: nat)
    requires IsDigit(c)
    ensures d < 10
  {
    c as int - '0' as int
  }

  /** The number a string of decimal digits denotes. */
  function DecimalValue(ds: string): nat
    requires AllDigits(ds)
  {
    if |ds| == 0 then 0
    else DecimalValue(ds[..|ds| - 1]) * 10 + DigitValue(ds[|ds| - 1])
  }

  /** How many decimal digits `s` starts with. */
  function DigitRun(s: string): (n: nat)
    ensures n <= |s| && AllDigits(s[..n])
    ensures n < |s| ==> !IsDigit(s[n])
  {
    if |s| == 0 || !IsDigit(s[0]) then 0
    else
      var n := DigitRun(s[1..]) + 1;
      assert forall i :: 1 <= i < n ==> s[..n][i] == s[1..][..n - 1][i - 1];
      n
  }

  /** The decimal numeral of `n`, without leading zeros. */
  function Numeral(n: nat): (s: string)
    ensures |s| > 0 && AllDigits(s)
  {
    var d := ['0' + (n % 10) as char];
    if n < 10 then d else Numeral(n / 10) + d
  }

  /** `parseInt(s, 10)`: an optional sign, then the longest run of digits; NaN when there is none. */
  function ParseInt(s: string): JsNumber {
    var negative := |s| > 0 && s[0] == '-';
    var body := if |s| > 0 && (s[0] == '-' || s[0] == '+') then s[1..] else s;
    var n := DigitRun(body);
    if n == 0 then NaN
    else if negative then Num(-(DecimalValue(body[..n]) as int))
    else Num(DecimalValue(body[..n]))
  }

  /**
   * `parseExpiresIn`: the last character is the unit, the rest the amount; the
   * result is in milliseconds. The empty string has the empty unit.
   */
  function ParseExpiresIn(expiresIn: string): (ms: JsNumber)
    ensures |expiresIn| == 0 || expiresIn[|expiresIn| - 1] !in "smhd" ==> ms == Num(900000)
  {
    if |expiresIn| == 0 then Num(15 * 60 * 1000)
    else
      var unit := expiresIn[|expiresIn| - 1];
      var value := ParseInt(expiresIn[..|expiresIn| - 1]);
      if unit == 's' then Times(value, 1000)
      else if unit == 'm' then Times(value, 60 * 1000)
      else if unit == 'h' then Times(value, 60 * 60 * 1000)
      else if unit == 'd' then Times(value, 24 * 60 * 60 * 1000)
      else Num(15 * 60 * 1000)
  }

  // Cookies.

  datatype CookieOptions = CookieOptions(httpOnly: bool, secure: bool, sameSite: string,
                                         maxAge: Option<JsNumber>, path: string)

  /** An instruction on the response: `res.cookie(name, value, options)` or `res.clearCookie(name, options)`. */
  datatype CookieOp =
    | SetCookie(name: string, value: string, options: CookieOptions)
    | ClearCookie(name: string, options: CookieOptions)

  const AccessCookie := "access_token"
  const RefreshCookie := "refresh_token"

  /** `process.env.NODE_ENV === 'production'`. */
  predicate IsProduction(nodeEnv: Option<string>) {
    nodeEnv == Some("production")
  }

  function SessionCookieOptions(nodeEnv: Option<string>, maxAge: Option<JsNumber>): CookieOptions {
    CookieOptions(true, IsProduction(nodeEnv), "lax", maxAge, "/")
  }

  /** The attributes every token cookie carries, whatever its lifetime. */
  predicate Hardened(o: CookieOptions, nodeEnv: Option<string>) {
    o.httpOnly && o.sameSite == "lax" && o.path == "/" && (o.secure <==> IsProduction(nodeEnv))
  }

  /** `setTokenCookies`: both tokens as cookies that live as long as the token they carry. */
  function SetTokenCookies(config: JwtConfig, nodeEnv: Option<string>, tokens: TokenPair): (ops: seq<CookieOp>)
    ensures |ops| == 2 && ops[0].SetCookie? && ops[1].SetCookie?
    ensures ops[0].name == AccessCookie && ops[0].value == tokens.accessToken
    ensures ops[1].name == RefreshCookie && ops[1].value == tokens.refreshToken
    ensures forall i :: 0 <= i < |ops| ==> Hardened(ops[i].options, nodeEnv)
    ensures ops[0].options.maxAge == Some(ParseExpiresIn(config.accessTokenExpiresIn))
    ensures ops[1].options.maxAge == Some(ParseExpiresIn(config.refreshTokenExpiresIn))
  {
    [ SetCookie(AccessCookie, tokens.accessToken,
                SessionCookieOptions(nodeEnv, Some(ParseExpiresIn(config.accessTokenExpiresIn)))),
      SetCookie(RefreshCookie, tokens.refreshToken,
                SessionCookieOptions(nodeEnv, Some(ParseExpiresIn(config.refreshTokenExpiresIn)))) ]
  }

  /** `clearTokenCookies`: clears both token cookies. */
  function ClearTokenCookies(nodeEnv: Option<string>): (ops: seq<CookieOp>)
    ensures |ops| == 2 && ops[0].ClearCookie? && ops[1].ClearCookie?
    ensures ops[0].name == AccessCookie && ops[1].name == RefreshCookie
    ensures forall i :: 0 <= i < |ops| ==> Hardened(ops[i].options, nodeEnv) && ops[i].options.maxAge.None?
  {
    [ ClearCookie(AccessCookie, SessionCookieOptions(nodeEnv, None)),
      ClearCookie(RefreshCookie, SessionCookieOptions(nodeEnv, None)) ]
  }
}

/** What the token service's pure parts promise. */
module TokenProperties {
  import opened Wrappers
  import opened Tokens

  /** Milliseconds per unit, as the configuration's duration strings mean them. */
  function UnitMs(unit: char): nat {
    if unit == 's' then 1000
    else if unit == 'm' then 60000
    else if unit == 'h' then 3600000
    else if unit == 'd' then 86400000
    else 0
  }

  /** Reading a numeral back gives the number it was printed from. */
  lemma {:induction false} NumeralValue(n: nat)
    ensures DecimalValue(Numeral(n)) == n
  {
    var s := Numeral(n);
    assert s[..|s| - 1] == (if n < 10 then [] else Numeral(n / 10));
    if n >= 10 {
      NumeralValue(n / 10);
    }
  }

  /** `parseInt` reads an unsigned digit string in full. */
  lemma ParseIntOfDigits(ds: string)
    requires |ds| > 0 && AllDigits(ds)
    ensures ParseInt(ds) == Num(DecimalValue(ds))
  {
    assert ds[..DigitRun(ds)] == ds;
  }

  /**
   * "<digits>s", "<digits>m", "<digits>h" and "<digits>d" give the amount
   * times 1000, 60000, 3600000 and 86400000 milliseconds.
   */
  lemma ParseExpiresInUnits(ds: string, unit: char)
    requires |ds| > 0 && AllDigits(ds) && unit in "smhd"
    ensures ParseExpiresIn(ds + [unit]) == Num(DecimalValue(ds) * UnitMs(unit))
  {
    var e := ds + [unit];
    assert e[..|e| - 1] == ds;
    ParseIntOfDigits(ds);
  }

  /** A duration printed from `n` and a unit parses back to `n` units. */
  lemma ParseExpiresInNumeral(n: nat, unit: char)
    requires unit in "smhd"
    ensures ParseExpiresIn(Numeral(n) + [unit]) == Num(n * UnitMs(unit))
  {
    ParseExpiresInUnits(Numeral(n), unit);
    NumeralValue(n);
  }

  /** The default expiries: 15 minutes and 7 days. */
  lemma DefaultExpiries()
    ensures ParseExpiresIn(DefaultAccessExpiresIn) == Num(900000)
    ensures ParseExpiresIn(DefaultRefreshExpiresIn) == Num(604800000)
  {
    assert DefaultAccessExpiresIn == "15" + ['m'];
    assert DefaultRefreshExpiresIn == "7" + ['d'];
    ParseExpiresInUnits("15", 'm');
    ParseExpiresInUnits("7", 'd');
    assert "15"[..1] == "1";
    assert DecimalValue("15") == 15;
  }

  /**
   * Clearing addresses the cookies that were set: same names, same attributes,
   * only without a lifetime.
   */
  lemma ClearMatchesSet(config: JwtConfig, nodeEnv: Option<string>, tokens: TokenPair)
    ensures var sets := SetTokenCookies(config, nodeEnv, tokens);
            var clears := ClearTokenCookies(nodeEnv);
            |sets| == |clears| &&
            forall i :: 0 <= i < |sets| ==>
              clears[i].name == sets[i].name && clears[i].options == sets[i].options.(maxAge := None)
  {
  }
}

=== FILE: validation.dfy ===
/** JSON values and the issue lists a zod `safeParse` reports. */
module JsonValues {
  import opened Wrappers

  /** A JSON value; numbers are modelled as integers. */
  datatype Json =
    | JNull
    | JBool(b: bool)
    | JNumber(n: int)
    | JString(s: string)
    | JArray(items: seq<Json>)
    | JObject(fields: map<string, Json>)

  datatype PathSegment = Key(key: string) | Index(index: nat)

  /** One zod issue: where it is and what it says. */
  datatype Issue = Issue(path: seq<PathSegment>, message: string)

  /** The result of `schema.safeParse(value)`. */
  datatype SafeParse = ParseOk(data: Json) | ParseErr(issues: seq<Issue>)

  /** `obj[key]`, with `None` for `undefined`. */
  function Lookup(obj: map<string, Json>, key: string): Option<Json> {
    if key in obj then Some(obj[key]) else None
  }

  /** The type name zod reports for a value it received. */
  function Received(v: Option<Json>): string {
    match v
    case None => "undefined"
    case Some(JNull) => "null"
    case Some(JBool(_)) => "boolean"
    case Some(JNumber(_)) => "number"
    case Some(JString(_)) => "string"
    case Some(JArray(_)) => "array"
    case Some(JObject(_)) => "object"
  }

  /**
   * JavaScript's `s.length`: the number of UTF-16 code units, two for each
   * character outside the Basic Multilingual Plane.
   */
  function Utf16Length(s: string): (n: nat)
    ensures |s| <= n <= 2 * |s|
    ensures (forall i :: 0 <= i < |s| ==> s[i] as int < 0x1_0000) ==> n == |s|
  {
    if |s| == 0 then 0
    else
      assert forall i :: 1 <= i < |s| ==> s[1..][i - 1] == s[i];
      (if s[0] as int < 0x1_0000 then 1 else 2) + Utf16Length(s[1..])
  }

  /** zod's default message for a value of the wrong type. */
  function InvalidType(expected: string, v: Option<Json>): string {
    "Invalid input: expected " + expected + ", received " + Received(v)
  }
}

/**
 * The shared zod object schemas `onboardingSchema` and `loginSchema`. An
 * object schema checks its declared fields in order, reports at most one
 * issue per field, runs the password refinement unless some field has the
 * wrong type, and outputs only the declared keys. Email and URL syntax are
 * parameters.
 */
module Schemas {
  import opened Wrappers
  import opened JsonValues
  import Onboarding

  datatype Formats = Formats(isEmail: string -> bool, isUrl: string -> bool)

  /** The rule a declared field follows, with the message it reports. */
  datatype Rule =
    | MinLength(min: nat, message: string)     // z.string().min(min, message)
    | EmailFormat(message: string)             // z.email(message)
    | OptionalUrl(message: string)             // z.url(message).optional().or(z.literal(''))

  datatype Field = Field(name: string, rule: Rule)

  /** A `z.object(...)`, optionally followed by the passwords-match refinement. */
  datatype Schema = Schema(fields: seq<Field>, passwordsMatch: bool)

  const PasswordMismatch := Issue([Key("confirmPassword")], "Passwords don't match")

  const OnboardingFields := [
    Field("companyName", MinLength(1, "Company name is required")),
    Field("companyUrl", OptionalUrl("Invalid URL")),
    Field("fullName", MinLength(1, "Full name is required")),
    Field("email", EmailFormat("Invalid email address")),
    Field("password", MinLength(8, "Password must be at least 8 characters")),
    Field("confirmPassword", MinLength(1, "Confirm password is required"))]

  /** `onboardingSchema` as declared. */
  const OnboardingSchema := Schema(OnboardingFields, true)

  /** `loginSchema`. */
  const LoginSchema := Schema([
    Field("email", EmailFormat("Invalid email address")),
    Field("password", MinLength(1, "Password is required"))], false)

  /** zod's message for a union none of whose options accepted the value. */
  const UnionMessage := "Invalid input"

  /**
   * The field's value has the wrong type for its rule. zod marks such an
   * issue (`invalid_type`, or a union whose options all failed on type) as
   * aborting, and an object with an aborting issue skips its refinements. A
   * string that is too short or in the wrong format gives a continuable issue.
   */
  predicate Aborts(rule: Rule, v: Option<Json>) {
    match rule
    case MinLength(_, _) => !(v.Some? && v.value.JString?)
    case EmailFormat(_) => !(v.Some? && v.value.JString?)
    case OptionalUrl(_) => v.Some? && !v.value.JString?
  }

  /** The message a rule reports for a field value, or `None` when it accepts it. */
  function Check(rule: Rule, v: Option<Json>, formats: Formats): (m: Option<string>)
    ensures m.None? <==> match rule
      case MinLength(min, _) => v.Some? && v.value.JString? && Utf16Length(v.value.s) >= min
      case EmailFormat(_) => v.Some? && v.value.JString? && formats.isEmail(v.value.s)
      case OptionalUrl(_) => v.None? || v == Some(JString("")) || (v.Some? && v.value.JString? && formats.isUrl(v.value.s))
    ensures Aborts(rule, v) ==> m.Some?
    ensures m.Some? ==> m.value in {rule.message, InvalidType("string", v), UnionMessage}
  {
    match rule
    case MinLength(min, message) =>
      if v.Some? && v.value.JString? then (if Utf16Length(v.value.s) >= min then None else Some(message))
      else Some(InvalidType("string", v))
    case EmailFormat(message) =>
      if v.Some? && v.value.JString? && formats.isEmail(v.value.s) then None else Some(message)
    case OptionalUrl(message) =>
      if v.None? || v == Some(JString("")) then None
      else if !v.value.JString? then Some(UnionMessage)
      else if formats.isUrl(v.value.s) then None
      else Some(message)
  }

  predicate FieldPasses(f: Field, obj: map<string, Json>, formats: Formats) {
    Check(f.rule, Lookup(obj, f.name), formats).None?
  }

  /** The field issues, in declaration order. */
  function FieldIssues(fields: seq<Field>, obj: map<string, Json>, formats: Formats): (issues: seq<Issue>)
    ensures issues == [] <==> forall i :: 0 <= i < |fields| ==> FieldPasses(fields[i], obj, formats)
    ensures forall j :: 0 <= j < |issues| ==> exists i :: 0 <= i < |fields| && issues[j].path == [Key(fields[i].name)]
    ensures |issues| <= |fields|
  {
    if |fields| == 0 then []
    else
      var rest := FieldIssues(fields[1..], obj, formats);
      assert forall i :: 1 <= i < |fields| ==> fields[i] == fields[1..][i - 1];
      match Check(fields[0].rule, Lookup(obj, fields[0].name), formats)
      case None => rest
      case Some(message) => [Issue([Key(fields[0].name)], message)] + rest
  }

  function Names(fields: seq<Field>): set<string> {
    set i | 0 <= i < |fields| :: fields[i].name
  }

  /** zod's default `strip`: unknown keys are dropped from the output. */
  function Strip(fields: seq<Field>, obj: map<string, Json>): (out: map<string, Json>)
    ensures out.Keys == obj.Keys * Names(fields)
    ensures forall k :: k in out ==> out[k] == obj[k]
  {
    map k | k in obj.Keys * Names(fields) :: obj[k]
  }

  /** No declared field has an aborting issue, so the object's refinement runs. */
  predicate TypesMatch(fields: seq<Field>, obj: map<string, Json>) {
    forall i :: 0 <= i < |fields| ==> !Aborts(fields[i].rule, Lookup(obj, fields[i].name))
  }

  /** The refinement's issue, when it runs and the passwords differ (`data.password === data.confirmPassword`). */
  function Refinement(schema: Schema, obj: map<string, Json>): seq<Issue> {
    if schema.passwordsMatch && TypesMatch(schema.fields, obj)
       && Lookup(obj, "password") != Lookup(obj, "confirmPassword")
    then [PasswordMismatch]
    else []
  }

  /** A field that passes its rule has the type the rule expects. */
  lemma PassingFieldsTyped(fields: seq<Field>, obj: map<string, Json>, formats: Formats)
    ensures (forall i :: 0 <= i < |fields| ==> FieldPasses(fields[i], obj, formats)) ==> TypesMatch(fields, obj)
  {
    if forall i :: 0 <= i < |fields| ==> FieldPasses(fields[i], obj, formats) {
      forall i | 0 <= i < |fields|
        ensures !Aborts(fields[i].rule, Lookup(obj, fields[i].name))
      {
        assert FieldPasses(fields[i], obj, formats);
      }
    }
  }

  /** `schema.safeParse(value)`: the field issues in order, then the refinement's. */
  function Parse(schema: Schema, value: Json, formats: Formats): (r: SafeParse)
    ensures r.ParseOk? <==>
      && value.JObject?
      && (forall i :: 0 <= i < |schema.fields| ==> FieldPasses(schema.fields[i], value.fields, formats))
      && (schema.passwordsMatch ==> Lookup(value.fields, "password") == Lookup(value.fields, "confirmPassword"))
    ensures r.ParseOk? ==> r.data.JObject? && r.data.fields.Keys == value.fields.Keys * Names(schema.fields)
    ensures r.ParseOk? ==> forall k :: k in r.data.fields ==> r.data.fields[k] == value.fields[k]
    ensures r.ParseErr? ==> |r.issues| > 0
  {
    if !value.JObject? then ParseErr([Issue([], InvalidType("object", Some(value)))])
    else
      var issues := FieldIssues(schema.fields, value.fields, formats) + Refinement(schema, value.fields);
      if issues == [] then ParseOk(JObject(Strip(schema.fields, value.fields)))
      else
        PassingFieldsTyped(schema.fields, value.fields, formats);
        ParseErr(issues)
  }

  /**
   * Every onboarding rule, stated field by field: the reference the schema
   * is measured against.
   */
  predicate OnboardingValid(obj: map<string, Json>, formats: Formats) {
    && Lookup(obj, "companyName").Some? && Lookup(obj, "companyName").value.JString?
    && Utf16Length(obj["companyName"].s) >= 1
    && ("companyUrl" in obj ==>
          obj["companyUrl"].JString? && (obj["companyUrl"].s == "" || formats.isUrl(obj["companyUrl"].s)))
    && "fullName" in obj && obj["fullName"].JString? && Utf16Length(obj["fullName"].s) >= 1
    && "email" in obj && obj["email"].JString? && formats.isEmail(obj["email"].s)
    && "password" in obj && obj["password"].JString? && Utf16Length(obj["password"].s) >= 8
    && "confirmPassword" in obj && obj["confirmPassword"].JString? && Utf16Length(obj["confirmPassword"].s) >= 1
    && obj["password"] == obj["confirmPassword"]
  }

  /** The login rules, field by field. */
  predicate LoginValid(obj: map<string, Json>, formats: Formats) {
    && "email" in obj && obj["email"].JString? && formats.isEmail(obj["email"].s)
    && "password" in obj && obj["password"].JString? && Utf16Length(obj["password"].s) >= 1
  }

  /**
   * Every declared onboarding field has the type its rule expects: the
   * strings are strings, and `companyUrl` is absent or a string.
   */
  predicate OnboardingTyped(obj: map<string, Json>) {
    && "companyName" in obj && obj["companyName"].JString?
    && ("companyUrl" in obj ==> obj["companyUrl"].JString?)
    && "fullName" in obj && obj["fullName"].JString?
    && "email" in obj && obj["email"].JString?
    && "password" in obj && obj["password"].JString?
    && "confirmPassword" in obj && obj["confirmPassword"].JString?
  }

  /**
   * What the validation pipe guarantees of the body the onboarding controller
   * reads, under either schema: the four fields the service needs are
   * strings, and `companyUrl` and `licenseKey` are absent or strings.
   */
  predicate PipeShaped(body: map<string, Json>) {
    && "companyName" in body && body["companyName"].JString?
    && "fullName" in body && body["fullName"].JString?
    && "email" in body && body["email"].JString?
    && "password" in body && body["password"].JString?
    && ("companyUrl" in body ==> body["companyUrl"].JString?)
    && ("licenseKey" in body ==> body["licenseKey"].JString?)
  }

  /**
   * The argument the onboarding controller passes to `onboardUser`: each
   * field read off the body as it stands, so an absent `licenseKey` or
   * `companyUrl` is passed as `undefined`.
   */
  function RequestData(body: map<string, Json>): (d: Onboarding.OnboardingData)
    requires PipeShaped(body)
    ensures d.licenseKey.Some? <==> "licenseKey" in body
    ensures d.licenseKey.Some? ==> body["licenseKey"] == JString(d.licenseKey.value)
    ensures d.companyUrl.Some? <==> "companyUrl" in body
    ensures d.companyUrl.Some? ==> body["companyUrl"] == JString(d.companyUrl.value)
    ensures body["companyName"] == JString(d.companyName) && body["fullName"] == JString(d.fullName)
    ensures body["email"] == JString(d.email) && body["password"] == JString(d.password)
  {
    Onboarding.OnboardingData(
      if "licenseKey" in body then Some(body["licenseKey"].s) else None,
      body["companyName"].s,
      if "companyUrl" in body then Some(body["companyUrl"].s) else None,
      body["fullName"].s, body["email"].s, body["password"].s)
  }

  /** `onboardingSchema` with the `licenseKey` field the request DTO declares. */
  const CorrectedOnboardingSchema :=
    Schema([Field("licenseKey", MinLength(1, "License key is required"))] + OnboardingFields, true)
}

/** Properties of the schemas. */
module SchemaProperties {
  import opened Wrappers
  import opened JsonValues
  import opened Schemas
  import Store
  import Onboarding
  import OnboardingProperties

  lemma OnboardingNames()
    ensures Names(OnboardingFields) == {"companyName", "companyUrl", "fullName", "email", "password", "confirmPassword"}
  {
    var n := Names(OnboardingFields);
    assert OnboardingFields[0].name == "companyName" && OnboardingFields[1].name == "companyUrl";
    assert OnboardingFields[2].name == "fullName" && OnboardingFields[3].name == "email";
    assert OnboardingFields[4].name == "password" && OnboardingFields[5].name == "confirmPassword";
  }

  /** A `min` rule passes exactly when the field is a string of at least `min` UTF-16 code units. */
  lemma MinLengthPasses(f: Field, obj: map<string, Json>, formats: Formats)
    requires f.rule.MinLength?
    ensures FieldPasses(f, obj, formats) <==>
      f.name in obj && obj[f.name].JString? && Utf16Length(obj[f.name].s) >= f.rule.min
  {
  }

  /** An email rule passes exactly when the field is a string in email syntax. */
  lemma EmailPasses(f: Field, obj: map<string, Json>, formats: Formats)
    requires f.rule.EmailFormat?
    ensures FieldPasses(f, obj, formats) <==> f.name in obj && obj[f.name].JString? && formats.isEmail(obj[f.name].s)
  {
  }

  /** An optional URL passes when absent, empty, or a string in URL syntax. */
  lemma OptionalUrlPasses(f: Field, obj: map<string, Json>, formats: Formats)
    requires f.rule.OptionalUrl?
    ensures FieldPasses(f, obj, formats) <==>
      (f.name in obj ==> obj[f.name].JString? && (obj[f.name].s == "" || formats.isUrl(obj[f.name].s)))
  {
  }

  lemma AllOnboardingFieldsPass(obj: map<string, Json>, formats: Formats)
    ensures (forall i :: 0 <= i < |OnboardingFields| ==> FieldPasses(OnboardingFields[i], obj, formats)) <==>
      && FieldPasses(OnboardingFields[0], obj, formats) && FieldPasses(OnboardingFields[1], obj, formats)
      && FieldPasses(OnboardingFields[2], obj, formats) && FieldPasses(OnboardingFields[3], obj, formats)
      && FieldPasses(OnboardingFields[4], obj, formats) && FieldPasses(OnboardingFields[5], obj, formats)
  {
  }

  /** The schema accepts exactly the objects that meet every onboarding rule. */
  lemma OnboardingSchemaAccepts(value: Json, formats: Formats)
    ensures Parse(OnboardingSchema, value, formats).ParseOk? <==> value.JObject? && OnboardingValid(value.fields, formats)
  {
    if value.JObject? {
      var o := value.fields;
      var fs := OnboardingFields;
      AllOnboardingFieldsPass(o, formats);
      MinLengthPasses(fs[0], o, formats);
      OptionalUrlPasses(fs[1], o, formats);
      MinLengthPasses(fs[2], o, formats);
      EmailPasses(fs[3], o, formats);
      MinLengthPasses(fs[4], o, formats);
      MinLengthPasses(fs[5], o, formats);
    }
  }

  /** The output keeps the declared fields present in the input, and nothing else. */
  lemma OnboardingOutputKeys(value: Json, formats: Formats)
    requires Parse(OnboardingSchema, value, formats).ParseOk?
    ensures var out := Parse(OnboardingSchema, value, formats).data.fields;
      && out.Keys == value.fields.Keys * {"companyName", "companyUrl", "fullName", "email", "password", "confirmPassword"}
      && "licenseKey" !in out
  {
    OnboardingNames();
    var out := Parse(OnboardingSchema, value, formats).data.fields;
    assert out.Keys == value.fields.Keys * Names(OnboardingFields);
    LicenseKeyUndeclared(value.fields.Keys, out.Keys);
  }

  lemma LicenseKeyUndeclared(keys: set<string>, out: set<string>)
    requires out == keys * {"companyName", "companyUrl", "fullName", "email", "password", "confirmPassword"}
    ensures "licenseKey" !in out
  {
  }

  /**
   * As declared, the schema strips `licenseKey`: every body it accepts
   * reaches `onboardUser` with `licenseKey` undefined, whatever key the
   * request carried.
   */
  lemma LicenseKeyDropped(value: Json, formats: Formats)
    requires Parse(OnboardingSchema, value, formats).ParseOk?
    ensures var out := Parse(OnboardingSchema, value, formats).data.fields;
      PipeShaped(out) && RequestData(out).licenseKey.None?
  {
    OnboardingOutputKeys(value, formats);
    OnboardingSchemaAccepts(value, formats);
    var out := Parse(OnboardingSchema, value, formats).data.fields;
    assert "companyName" in out && "fullName" in out && "email" in out && "password" in out;
  }

  /**
   * The schema as declared never lets the key decide: every accepted body
   * fails with "Invalid license key" exactly when there are no licenses at
   * all, and otherwise goes on with the first license row.
   */
  lemma KeyNeverChecked(value: Json, formats: Formats, db: Store.Db, now: int, hash: string -> string,
                        ids: Onboarding.NewIds)
    requires Parse(OnboardingSchema, value, formats).ParseOk?
    ensures var out := Parse(OnboardingSchema, value, formats).data.fields;
      && PipeShaped(out)
      && (Onboarding.OnboardUser(db, RequestData(out), now, hash, ids).outcome == Failure(Onboarding.InvalidLicenseKey)
          <==> |db.licenses| == 0)
  {
    LicenseKeyDropped(value, formats);
    var out := Parse(OnboardingSchema, value, formats).data.fields;
    OnboardingProperties.UndefinedKeyTakesFirstLicense(db, RequestData(out), now, hash, ids);
  }

  /**
   * With `licenseKey` declared, every body the schema accepts reaches the
   * service with its license key, company name, email and password intact.
   */
  lemma LicenseKeyKept(value: Json, formats: Formats)
    requires Parse(CorrectedOnboardingSchema, value, formats).ParseOk?
    ensures var out := Parse(CorrectedOnboardingSchema, value, formats).data.fields;
      && PipeShaped(out) && value.JObject?
      && var d := RequestData(out);
      && d.licenseKey.Some?
      && Lookup(value.fields, "licenseKey") == Some(JString(d.licenseKey.value))
      && Lookup(value.fields, "companyName") == Some(JString(d.companyName))
      && Lookup(value.fields, "email") == Some(JString(d.email))
      && Lookup(value.fields, "password") == Some(JString(d.password))
  {
    var fs := CorrectedOnboardingSchema.fields;
    var o := value.fields;
    assert FieldPasses(fs[0], o, formats) && FieldPasses(fs[1], o, formats) && FieldPasses(fs[3], o, formats);
    assert FieldPasses(fs[4], o, formats) && FieldPasses(fs[5], o, formats) && FieldPasses(fs[2], o, formats);
    MinLengthPasses(fs[0], o, formats);
    MinLengthPasses(fs[1], o, formats);
    OptionalUrlPasses(fs[2], o, formats);
    MinLengthPasses(fs[3], o, formats);
    EmailPasses(fs[4], o, formats);
    MinLengthPasses(fs[5], o, formats);
    CorrectedNames();
  }

  lemma CorrectedNames()
    ensures Names(CorrectedOnboardingSchema.fields)
      == {"licenseKey", "companyName", "companyUrl", "fullName", "email", "password", "confirmPassword"}
  {
    var fs := CorrectedOnboardingSchema.fields;
    assert fs[0].name == "licenseKey" && fs[1].name == "companyName" && fs[2].name == "companyUrl";
    assert fs[3].name == "fullName" && fs[4].name == "email";
    assert fs[5].name == "password" && fs[6].name == "confirmPassword";
  }

  /** The schema accepts exactly the objects that meet both login rules. */
  lemma LoginSchemaAccepts(value: Json, formats: Formats)
    ensures Parse(LoginSchema, value, formats).ParseOk? <==> value.JObject? && LoginValid(value.fields, formats)
  {
    if value.JObject? {
      var fs := LoginSchema.fields;
      assert (forall i :: 0 <= i < |fs| ==> FieldPasses(fs[i], value.fields, formats)) <==>
        FieldPasses(fs[0], value.fields, formats) && FieldPasses(fs[1], value.fields, formats);
    }
  }

  /** The login output holds exactly `email` and `password`. */
  lemma LoginOutputKeys(value: Json, formats: Formats)
    requires Parse(LoginSchema, value, formats).ParseOk?
    ensures Parse(LoginSchema, value, formats).data.fields.Keys == {"email", "password"}
  {
    LoginSchemaAccepts(value, formats);
    var fs := LoginSchema.fields;
    assert Names(fs) == {"email", "password"} by {
      assert fs[0].name == "email" && fs[1].name == "password";
    }
  }

  /**
   * Login has no eight-character minimum: a one-character password that the
   * onboarding schema rejects is accepted at login.
   */
  lemma LoginPasswordShorter(email: string, password: string, formats: Formats)
    requires formats.isEmail(email) && 1 <= Utf16Length(password) < 8
    ensures Parse(LoginSchema, JObject(map["email" := JString(email), "password" := JString(password)]), formats).ParseOk?
    ensures !Parse(OnboardingSchema, JObject(map["email" := JString(email), "password" := JString(password),
                                                "confirmPassword" := JString(password)]), formats).ParseOk?
  {
    LoginSchemaAccepts(JObject(map["email" := JString(email), "password" := JString(password)]), formats);
    OnboardingSchemaAccepts(JObject(map["email" := JString(email), "password" := JString(password),
                                        "confirmPassword" := JString(password)]), formats);
  }

  /** The refinement runs exactly when every declared field has the type its rule expects. */
  lemma OnboardingTypesMatch(obj: map<string, Json>)
    ensures TypesMatch(OnboardingFields, obj) <==> OnboardingTyped(obj)
  {
    var fs := OnboardingFields;
    assert TypesMatch(fs, obj) <==>
      && !Aborts(fs[0].rule, Lookup(obj, fs[0].name)) && !Aborts(fs[1].rule, Lookup(obj, fs[1].name))
      && !Aborts(fs[2].rule, Lookup(obj, fs[2].name)) && !Aborts(fs[3].rule, Lookup(obj, fs[3].name))
      && !Aborts(fs[4].rule, Lookup(obj, fs[4].name)) && !Aborts(fs[5].rule, Lookup(obj, fs[5].name));
  }

  /**
   * The refinement: "Passwords don't match" on `confirmPassword` is reported
   * exactly when every field has the right type and the passwords differ. A
   * too-short or badly formatted field does not stop it; the refinement's
   * issue then follows the field issues.
   */
  lemma PasswordMismatchReported(value: Json, formats: Formats)
    requires value.JObject?
    ensures var r := Parse(OnboardingSchema, value, formats);
      && (r.ParseErr? && PasswordMismatch in r.issues <==>
            OnboardingTyped(value.fields) && Lookup(value.fields, "password") != Lookup(value.fields, "confirmPassword"))
      && (OnboardingTyped(value.fields) && Lookup(value.fields, "password") != Lookup(value.fields, "confirmPassword")
          ==> r == ParseErr(FieldIssues(OnboardingFields, value.fields, formats) + [PasswordMismatch]))
  {
    OnboardingTypesMatch(value.fields);
    NoFieldIssueIsMismatch(value.fields, formats);
  }

  /** No field rule of the onboarding schema reports the refinement's issue. */
  lemma NoFieldIssueIsMismatch(obj: map<string, Json>, formats: Formats)
    ensures PasswordMismatch !in FieldIssues(OnboardingFields, obj, formats)
  {
    forall v ensures PasswordMismatch.message != InvalidType("string", v) {
      assert InvalidType("string", v)[1] == 'n';
    }
    NoFieldIssueSays(OnboardingFields, obj, formats, PasswordMismatch.message);
  }

  /**
   * A message that no rule declares, and that is neither zod's type message
   * nor its union message, is never a field issue's message.
   */
  lemma NoFieldIssueSays(fields: seq<Field>, obj: map<string, Json>, formats: Formats, message: string)
    requires forall v :: message != InvalidType("string", v)
    requires message != UnionMessage
    requires forall i :: 0 <= i < |fields| ==> fields[i].rule.message != message
    ensures forall issue :: issue in FieldIssues(fields, obj, formats) ==> issue.message != message
  {
    var issues := FieldIssues(fields, obj, formats);
    forall j | 0 <= j < |issues|
      ensures issues[j].message != message
    {
      var i := FieldIssueMessage(fields, obj, formats, j);
      var v := Lookup(obj, fields[i].name);
      assert Check(fields[i].rule, v, formats).value in {fields[i].rule.message, InvalidType("string", v), UnionMessage};
    }
  }

  /** A field issue carries the message of the rule of the field it names. */
  lemma {:induction false} FieldIssueMessage(fields: seq<Field>, obj: map<string, Json>, formats: Formats, j: nat)
      returns (i: nat)
    requires j < |FieldIssues(fields, obj, formats)|
    ensures i < |fields|
    ensures Check(fields[i].rule, Lookup(obj, fields[i].name), formats).Some?
    ensures FieldIssues(fields, obj, formats)[j]
      == Issue([Key(fields[i].name)], Check(fields[i].rule, Lookup(obj, fields[i].name), formats).value)
  {
    var issues := FieldIssues(fields, obj, formats);
    var rest := FieldIssues(fields[1..], obj, formats);
    var m := Check(fields[0].rule, Lookup(obj, fields[0].name), formats);
    if m.Some? && j == 0 {
      i := 0;
    } else {
      var j' := if m.Some? then j - 1 else j;
      assert issues[j] == rest[j'];
      var i' := FieldIssueMessage(fields[1..], obj, formats, j');
      assert fields[1..][i'] == fields[i' + 1];
      i := i' + 1;
    }
  }

  /** Parsing is a fixpoint: parsing an output again gives the same output. */
  lemma ParseOutputStable(schema: Schema, value: Json, formats: Formats)
    requires schema.passwordsMatch ==> "password" in Names(schema.fields) && "confirmPassword" in Names(schema.fields)
    requires Parse(schema, value, formats).ParseOk?
    ensures Parse(schema, Parse(schema, value, formats).data, formats) == Parse(schema, value, formats)
  {
    var out := Parse(schema, value, formats).data;
    forall i | 0 <= i < |schema.fields|
      ensures FieldPasses(schema.fields[i], out.fields, formats)
    {
      assert schema.fields[i].name in Names(schema.fields);
      assert Lookup(out.fields, schema.fields[i].name) == Lookup(value.fields, schema.fields[i].name);
    }
    if schema.passwordsMatch {
      assert Lookup(value.fields, "password") == Lookup(value.fields, "confirmPassword");
      assert Lookup(out.fields, "password") == Lookup(out.fields, "confirmPassword");
    }
    assert Strip(schema.fields, out.fields) == out.fields;
  }
}

/**
 * `ZodValidationPipe.transform`: body and query arguments go through the
 * schema's `safeParse`; every other argument passes through untouched. A
 * failure is the `BadRequestException` carrying the zod issues.
 */
module ValidationPipe {
  import opened Wrappers
  import opened JsonValues
  import opened Schemas

  /** `ArgumentMetadata.type`. */
  datatype ParamType = Body | Query | Param | Custom

  predicate Validated(metaType: ParamType) {
    metaType == Body || metaType == Query
  }

  function Transform(value: Json, metaType: ParamType, safeParse: Json -> SafeParse): (r: Result<Json, seq<Issue>>)
    ensures !Validated(metaType) ==> r == Success(value)
    ensures Validated(metaType) ==> (r.Success? <==> safeParse(value).ParseOk?)
    ensures Validated(metaType) && r.Success? ==> r.value == safeParse(value).data
    ensures Validated(metaType) && r.Failure? ==> r.error == safeParse(value).issues
  {
    if !Validated(metaType) then Success(value)
    else
      match safeParse(value)
      case ParseErr(issues) => Failure(issues)
      case ParseOk(data) => Success(data)
  }
}

module ValidationPipeProperties {
  import opened Wrappers
  import opened JsonValues
  import opened Schemas
  import opened ValidationPipe
  import SchemaProperties

  /** Route parameters and custom arguments never consult the schema. */
  lemma PipeIgnoresSchema(value: Json, metaType: ParamType, a: Json -> SafeParse, b: Json -> SafeParse)
    requires !Validated(metaType)
    ensures Transform(value, metaType, a) == Transform(value, metaType, b)
  {
  }

  /**
   * Body and query are validated alike; the controller sees the schema's
   * output, so an accepted onboarding body arrives without `licenseKey`.
   */
  lemma OnboardingBodyStripped(value: Json, formats: Formats, metaType: ParamType)
    requires Validated(metaType)
    requires value.JObject? && "licenseKey" in value.fields
    requires Parse(OnboardingSchema, value, formats).ParseOk?
    ensures var r := Transform(value, metaType, v => Parse(OnboardingSchema, v, formats));
      r.Success? && r.value != value && "licenseKey" !in r.value.fields
  {
    SchemaProperties.OnboardingOutputKeys(value, formats);
  }

  /** A body that fails the schema is rejected with exactly the schema's issues. */
  lemma RejectedWithIssues(value: Json, schema: Schema, formats: Formats, metaType: ParamType)
    requires Validated(metaType)
    requires Parse(schema, value, formats).ParseErr?
    ensures Transform(value, metaType, v => Parse(schema, v, formats)) == Failure(Parse(schema, value, formats).issues)
    ensures |Transform(value, metaType, v => Parse(schema, v, formats)).error| > 0
  {
  }

  /** Running the pipe twice with the same schema gives what running it once gave. */
  lemma PipeIdempotent(value: Json, schema: Schema, formats: Formats, metaType: ParamType)
    requires schema.passwordsMatch ==> "password" in Names(schema.fields) && "confirmPassword" in Names(schema.fields)
    requires Transform(value, metaType, v => Parse(schema, v, formats)).Success?
    ensures var once := Transform(value, metaType, v => Parse(schema, v, formats));
      Transform(once.value, metaType, v => Parse(schema, v, formats)) == once
  {
    if Validated(metaType) {
      SchemaProperties.ParseOutputStable(schema, value, formats);
    }
  }
}

/**
 * `validateRequest` of the mock server: a successful parse yields its data;
 * a failed one yields one `{path, message}` per issue, the path's segments
 * joined by '.'.
 */
module RequestValidation {
  import opened JsonValues
  import Tokens

  datatype FieldError = FieldError(path: string, message: string)

  datatype Validation = Accepted(data: Json) | Rejected(errors: seq<FieldError>)

  /** How `Array.prototype.join` prints a path segment. */
  function SegmentText(seg: PathSegment): string {
    match seg
    case Key(k) => k
    case Index(n) => Tokens.Numeral(n)
  }

  /** `parts.join('.')`. */
  function Join(parts: seq<string>): (s: string)
    ensures |parts| == 0 ==> s == ""
    ensures |parts| == 1 ==> s == parts[0]
  {
    if |parts| == 0 then ""
    else if |parts| == 1 then parts[0]
    else parts[0] + "." + Join(parts[1..])
  }

  function PathText(path: seq<PathSegment>): string {
    Join(seq(|path|, i requires 0 <= i < |path| => SegmentText(path[i])))
  }

  function ValidateRequest(safeParse: Json -> SafeParse, data: Json): (r: Validation)
    ensures r.Accepted? <==> safeParse(data).ParseOk?
    ensures r.Accepted? ==> r.data == safeParse(data).data
    ensures r.Rejected? ==> |r.errors| == |safeParse(data).issues|
    ensures r.Rejected? ==> forall i :: 0 <= i < |r.errors| ==>
      r.errors[i] == FieldError(PathText(safeParse(data).issues[i].path), safeParse(data).issues[i].message)
  {
    match safeParse(data)
    case ParseOk(d) => Accepted(d)
    case ParseErr(issues) =>
      Rejected(seq(|issues|, i requires 0 <= i < |issues| => FieldError(PathText(issues[i].path), issues[i].message)))
  }

  /** `s.split('.')`, the inverse of `Join` on dot-free parts. */
  function Split(s: string): (parts: seq<string>)
    ensures |parts| >= 1
  {
    if |s| == 0 then [""]
    else if s[0] == '.' then [""] + Split(s[1..])
    else
      var rest := Split(s[1..]);
      [[s[0]] + rest[0]] + rest[1..]
  }

  predicate DotFree(s: string) {
    forall i :: 0 <= i < |s| ==> s[i] != '.'
  }
}

module RequestValidationProperties {
  import opened JsonValues
  import opened RequestValidation
  import Schemas
  import Tokens
  import TokenProperties

  lemma {:induction false} SplitDotFree(w: string, tail: string)
    requires DotFree(w)
    ensures Split(w + "." + tail) == [w] + Split(tail)
    ensures Split(w) == [w]
    decreases |w|
  {
    if |w| == 0 {
      assert w + "." + tail == "." + tail;
      assert ("." + tail)[1..] == tail;
    } else {
      assert (w + "." + tail)[1..] == w[1..] + "." + tail;
      SplitDotFree(w[1..], tail);
      assert [w[0]] + w[1..] == w;
    }
  }

  /** Splitting a joined path on '.' recovers the parts, when no part contains a dot. */
  lemma {:induction false} SplitJoin(parts: seq<string>)
    requires |parts| >= 1
    requires forall i :: 0 <= i < |parts| ==> DotFree(parts[i])
    ensures Split(Join(parts)) == parts
    decreases |parts|
  {
    if |parts| == 1 {
      SplitDotFree(parts[0], "");
    } else {
      SplitJoin(parts[1..]);
      SplitDotFree(parts[0], Join(parts[1..]));
      assert [parts[0]] + parts[1..] == parts;
    }
  }

  lemma NumeralDotFree(n: nat)
    ensures DotFree(Tokens.Numeral(n))
  {
    var s := Tokens.Numeral(n);
    assert Tokens.AllDigits(s);
    forall i | 0 <= i < |s| ensures s[i] != '.' {
      assert Tokens.IsDigit(s[i]);
    }
  }

  /**
   * The error path keeps the issue path: splitting it on '.' gives back
   * each segment's text, provided no key contains a dot.
   */
  lemma PathTextRoundTrip(path: seq<PathSegment>)
    requires |path| >= 1
    requires forall i :: 0 <= i < |path| ==> path[i].Key? ==> DotFree(path[i].key)
    ensures Split(PathText(path)) == seq(|path|, i requires 0 <= i < |path| => SegmentText(path[i]))
  {
    var parts := seq(|path|, i requires 0 <= i < |path| => SegmentText(path[i]));
    forall i | 0 <= i < |parts| ensures DotFree(parts[i]) {
      if path[i].Index? {
        NumeralDotFree(path[i].index);
      }
    }
    SplitJoin(parts);
  }

  /** An issue on the object itself has the empty path, which prints as "". */
  lemma EmptyPathText()
    ensures PathText([]) == ""
  {
  }

  /**
   * An onboarding body whose fields pass but whose passwords differ is
   * reported as the single error {path: "confirmPassword", message: "Passwords don't match"}.
   */
  lemma MismatchError(value: Json, formats: Schemas.Formats)
    requires value.JObject?
    requires forall i :: 0 <= i < |Schemas.OnboardingFields| ==>
      Schemas.FieldPasses(Schemas.OnboardingFields[i], value.fields, formats)
    requires Lookup(value.fields, "password") != Lookup(value.fields, "confirmPassword")
    ensures ValidateRequest(v => Schemas.Parse(Schemas.OnboardingSchema, v, formats), value)
      == Rejected([FieldError("confirmPassword", "Passwords don't match")])
  {
    var r := ValidateRequest(v => Schemas.Parse(Schemas.OnboardingSchema, v, formats), value);
    assert Schemas.Parse(Schemas.OnboardingSchema, value, formats).issues == [Schemas.PasswordMismatch];
    assert PathText([Key("confirmPassword")]) == "confirmPassword";
  }
}

=== FILE: wrappers.dfy ===
/** Failure-compatible wrappers shared by every module of the model. */
module Wrappers {

  /** A value that may be missing: TypeScript's `T | undefined` / `T | null`. */
  datatype Option<+T> = None | Some(value: T)

  /** The outcome of an operation that either returns a value or throws. */
  datatype Result<+R, +E> = Success(value: R) | Failure(error: E)
}

/** The HTTP exceptions the backend throws (NestJS exception classes). */
module Exceptions {

  datatype Status = BadRequest | Unauthorized | NotFound | Conflict | InternalServerError

  /** An exception as the client observes it: its class and its message. */
  datatype HttpException = HttpException(status: Status, message: string)

  /** The HTTP status code NestJS sends for each exception class. */
  function Code(s: Status): (code: int)
    ensures 400 <= code < 600
    ensures code < 500 <==> s != InternalServerError
  {
    match s
    case BadRequest => 400
    case Unauthorized => 401
    case NotFound => 404
    case Conflict => 409
    case InternalServerError => 500
  }

  /** A property read on `null`/`undefined` throws a TypeError, which NestJS answers with 500. */
  const TypeError := HttpException(InternalServerError, "Internal server error")
}
